=== FILE: README.md ===
# Account API of `users/`: a Dafny model

This project models the account endpoints of the `users` application: the
`CustomUser` record, the six serializers, the view set's choice of permission
and serializer per action, the `me` and `set_password` actions, and token
login and logout. It proves properties of that model in Dafny 4.11.

The modules follow the application's files:

- `models.dfy` (`Models`) covers `users/models.py`. It holds the sixteen columns with their declarations, the idealised stored password, the users-table invariant (ids match keys, unique emails, well-formed rows) and login by email.
- `utils.dfy` (`Tokens`) covers `users/utils.py`: `token_login` and `token_logout` over a token table and the request's session.
- `serializers.dfy` (`Serializers`) covers `users/serializers.py`.
  - It holds each serializer's declared keys and their read-only, write-only and required flags, as a model serializer derives them.
  - It holds the REST framework's validation order. Each writable key is checked on its own (presence, null, shape and coercion, stripping, blank, then the field's validators in list order: uniqueness first for a unique column, then maximum length, then U+0000; then the key's `validate_<key>` hook). All key errors are collected. The serializer-wide `validate` hook runs only when there are none.
  - It also holds rendering, and the write-back of validated data onto a record.
- `strip.dfy` (`Strip`) covers the whitespace stripping a `CharField` applies to text input.
- `dispatch.dfy` (`Dispatch`) covers `get_permissions` and `get_serializer_class` in `users/views.py`.
- `views.dfy` (`Views`) covers the `me` and `set_password` actions and one request end to end: authentication, the permission check, then the action.

Several modelling choices apply throughout:

- Payloads and rendered records are maps from keys to a small `Value` type.
- Errors are values, never exceptions.
- A missing key in `PasswordSerializer.validate` (a `KeyError` in the code, which would answer 500) is the error `KeyMissing`. It cannot arise: the hook runs only on a full validation, where both keys are required.
- The password-strength validators are a parameter of the configuration.
- Hashing is idealised: a hashed password checks against exactly the text it was made from. A text written into the column without hashing is stored as `Plain`, which never checks (see "## Left out" for where Django differs).

Three defects of the code are modelled twice, once as written and once corrected; see "## Findings".

- **The password action is looked up under the wrong name.** `get_permissions` and `get_serializer_class` test `reset_password`, but the action is `set_password`. As written, only staff may change a password, and the password-change serializer is never chosen.
- **`me` and `set_password` cannot find the record they act on.** Both call `get_object()` on routes without a primary key, so they fail with a server error. `me` GET, PUT and PATCH reach `get_object()` through `retrieve` and `update` before any validation; `me` DELETE and `set_password` reach it after validation. The corrected model acts on the requesting user, which is what the unused `get_instance` returns.
- **Deletion never checks the password.** `CustomUserDeleteSerializer` does not list `current_password` in `Meta.fields`. A model serializer drops a field declared by a parent class when `Meta.fields` omits it, so a deletion is never confirmed by a password.

The corrected definitions are the ones the rest of the model uses.

`CustomAdminSerializer` declares `fields = '__all__'` and so renders the encoded password, as does the deletion serializer, which lists `password` as a read-only field (`Serializers.RenderPassword`).

A staff caller changing their password goes through the admin serializer. That serializer has no `new_password`, so `set_password(None)` leaves the account with an unusable password. The model keeps this behaviour, once the record lookup (`get_object()` on `users/views.py:74`) is corrected (see "## Findings"): see `Views.StaffPasswordChangeLocksOut`.

## Model

| member | source | states |
|---|---|---|
| `Strip.LeadingSpaces` | users/serializers.py:12 | Counts the whitespace a text starts with: every character before the count is whitespace, and the one at the count is not. |
| `Strip.TrailingStart` | users/serializers.py:12 | Finds where the whitespace a text ends with begins: every character from there on is whitespace, and the one before it is not. |
| `Strip.Trim` | users/serializers.py:12 | The stripped text is the slice of the input that starts after its leading whitespace. Every character outside the slice is whitespace. The slice starts and ends with a non-space character, or is empty. |
| `Strip.StripUnique` | users/serializers.py:12 | No other slice has those properties: a slice that is stripped, with only whitespace outside it, is `strip()`'s result. |
| `Strip.TrimEmptyIffBlank` | users/serializers.py:12 | A text is rejected as blank after stripping exactly when every character is whitespace. |
| `Strip.TrimIdempotent` | users/serializers.py:27 | Stripping an already stripped text changes nothing. |
| `Models.MakePasswordChecks` | users/views.py:75 | After `set_password(p)` exactly `p` checks. After `set_password(None)` nothing checks. |
| `Models.GetDetermines` | users/models.py:8-13 | Two records that agree on every column are the same record. |
| `Models.SetThenGet` | users/models.py:8-13 | Assigning a column changes only that column. An admissible value reads back as assigned. A text assigned to the password column is stored unhashed. |
| `Models.WellFormedAgreesWithRules` | users/models.py:9-13 | The stored-record bounds hold exactly when every column but the password is admissible under its declaration. |
| `Models.SetKeepsWellFormed` | users/models.py:9-13 | Assigning an admissible value keeps a record within its bounds. |
| `Models.Optionality` | users/models.py:9-13 | `name` may be blank. `birth_date` and `phone` may be null. `username` and `email` may be neither blank nor null. |
| `Models.LengthBounds` | users/models.py:9-13 | `username` admits 1 to 200 characters, `name` at most 200, `phone` at most 20. |
| `Models.OwnEmailFree` | users/models.py:10 | In a table with unique emails, no other row holds a row's own email. |
| `Models.ReplaceKeepsValid` | users/models.py:10 | Replacing a row by a well-formed one with the same id and an email no other row holds keeps the table valid. |
| `Models.Authenticate` | users/models.py:15-16 | Login by email succeeds exactly when some active row with that email has a password that checks. The row found carries that email. |
| `Tokens.TokenLogin` | users/utils.py:6-10 | The user's existing token is returned unchanged; otherwise the fresh key is stored if no one else holds it. Other users' tokens stay. The session is logged in exactly when sessions are on. |
| `Tokens.TokenLogout` | users/utils.py:13-16 | The user's token is deleted and every other token is kept unchanged. The session is logged out exactly when sessions are on. |
| `Tokens.TokenLoginIdempotent` | users/utils.py:7 | Logging in twice hands out the same token and leaves the store as the first login did. |
| `Tokens.TokenLoginKeepsKeysUnique` | users/utils.py:7 | Token login keeps token keys unique. |
| `Tokens.TokenLogoutKeepsKeysUnique` | users/utils.py:14 | Token logout keeps token keys unique and adds no token. |
| `Tokens.TokenLogoutRevokesKey` | users/utils.py:14 | After logout the user's former key belongs to nobody. |
| `Tokens.LogoutThenLogin` | users/utils.py:6-16 | After a logout, logging in again issues the fresh key. |
| `Tokens.TokenOwner` | users/utils.py:6-10 | A key has an owner exactly when some user holds it, and the owner found holds that key. |
| `Serializers.ReadValue` | users/models.py:9-13 | A null is read exactly when the column is nullable. Otherwise a char column reads the stripped text or decimal integer the field accepts, and a boolean column reads the boolean the field accepts. |
| `Serializers.CharValidators` | users/models.py:9-13 | The length and U+0000 validators pass a text through unchanged exactly when it is within the column's maximum length and free of U+0000. A text over the bound is refused as too long before U+0000 is looked at. |
| `Serializers.DecimalReadsBack` | users/serializers.py:12 | The text a char field makes of an integer is its decimal spelling: the digits read back as the number, and there is no leading zero unless the number is zero. |
| `Serializers.CheckValue` | users/models.py:9-13 | An accepted value conforms to the column's declaration. Accepted text is stripped and free of U+0000. A null is accepted exactly when the column is nullable. An accepted char value is the text the field reads (a stripped string, or an integer in decimal). An accepted boolean is what the field reads. |
| `Serializers.CheckValueAcceptsConforming` | users/models.py:9-13 | A value that already conforms, and is stripped if it is text, is accepted unchanged. The exception is text holding U+0000, which is refused with the null-character error. |
| `Serializers.CharText` | users/serializers.py:12 | A char field reads a string as its stripped text and an integer as its decimal digits. It reads no other value, a boolean included. |
| `Serializers.BoolOf` | users/serializers.py:75-82 | A boolean field reads a boolean as itself, 1 and 0 as true and false, and exactly the listed true and false strings. It reads no other value. |
| `Serializers.BooleanTextsDisjoint` | users/serializers.py:75-82 | No string reads as both true and false. |
| `Serializers.CheckValueAcceptsChar` | users/serializers.py:12 | A text or integer that is non-blank once stripped, within the length bound and free of U+0000 is accepted as its stripped text. |
| `Serializers.CheckValueRefusesNul` | users/serializers.py:12 | The same kind of input holding U+0000 is refused with the null-character error. |
| `Serializers.ValidateCurrentPassword` | users/serializers.py:18-23 | The current password is accepted exactly when it checks against the requesting user's password; otherwise the error is `invalid_password`. |
| `Serializers.CheckKey` | users/serializers.py:10-23 | An accepted key's value is what the value check makes of the payload's value, so it conforms and is stripped. An absent key passes only when it is optional or the update is partial. A unique column's value is held by no other row, and a read value another row holds is refused as not unique before the length and U+0000 validators run. An accepted current password checks. |
| `Serializers.ValidatePasswordChange` | users/serializers.py:29-36 | The hook passes exactly when both passwords are present, the new one is strong and the two differ. A weak password is reported before the comparison. An equal pair is reported as "same as old". |
| `Serializers.ValidateWith` | users/views.py:58-59 | Validated data holds only writable keys the payload carried. Each key's value is what the value check makes of the value sent for it, so an update stores what was sent, stripped. It holds every required key on a full update. No unique value is held by another row, and the current password checks. |
| `Serializers.Validate` | users/views.py:71-72 | A serializer's validated data holds only keys it accepts that the payload carried, each the value check's result for the value sent. On a full validation it holds every required key. |
| `Serializers.ValidateAsWritten` | users/serializers.py:75-82 | With the serializers as the code declares them, deletion validation succeeds exactly when `is_active`, if sent, reads as a boolean. |
| `Serializers.ApplyUpdate` | users/views.py:53-56 | The update keeps the id, the email and the password whenever the validated data lacks them. `Serializers.ApplyUpdateGet` states the rest. |
| `Serializers.ApplyUpdateIsLoop` | users/views.py:53-56 | The update equals the column-by-column assignment of the validated data over all columns. |
| `Serializers.ApplyFieldsGet` | users/views.py:53-56 | After the assignment loop, each column reads as the validated data assigns it, or is unchanged when the data lacks it. |
| `Serializers.ApplyFieldsKeepsWellFormed` | users/views.py:53-56 | The assignment loop with admissible values keeps a record well formed. |
| `Serializers.ApplyUpdateGet` | users/views.py:53-56 | A column the validated data lacks is unchanged by the update. A carried admissible column other than the password reads back as validated. |
| `Serializers.AdminListProjection` | users/serializers.py:43-46 | The list serializer renders exactly `id` and `email` and accepts only `email`. |
| `Serializers.ProjectionOf` | users/serializers.py:10-82 | Only the two confirming serializers declare `current_password`, as a plain char field. Only the password-change serializer declares `new_password`. A declared primary key is read-only. |
| `Serializers.ProjectionAsWritten` | users/serializers.py:75-82 | As the code declares them, the projections are the corrected ones except for deletion. Only the password-change serializer has `current_password`. |
| `Serializers.AdminProjection` | users/serializers.py:49-52 | The admin serializer declares every column and renders the password. It requires exactly `password`, `username` and `email`. |
| `Serializers.UserProjection` | users/serializers.py:55-59 | The self-service serializer renders email, username, name, phone and birth date. It accepts all of them but email. Only username is required. |
| `Serializers.CreateProjection` | users/serializers.py:62-72 | Registration accepts the six listed columns. It requires email, username and password, and never renders the password. |
| `Serializers.DeleteProjection` | users/serializers.py:75-82 | The corrected deletion serializer requires `current_password`. `password` is read-only, so only `current_password` and `is_active` are writable. |
| `Serializers.DeleteProjectionAsWritten` | users/serializers.py:75-82 | The deletion serializer as declared: `Meta.fields` lists `password` and `is_active`, so the parent's `current_password` is dropped. Its meaning is stated by `Serializers.DeleteProjectionAsWrittenLacksPassword` and `Serializers.DeleteIgnoresPasswordAsWritten`. |
| `Serializers.DeleteProjectionAsWrittenLacksPassword` | users/serializers.py:75-82 | As written, the deletion serializer has no `current_password`. Only `is_active` is writable. |
| `Serializers.SetPasswordProjection` | users/serializers.py:39-40 | The password-change serializer accepts and requires exactly `current_password` and `new_password`. |
| `Serializers.RenderPassword` | users/serializers.py:49-82 | Only the admin and deletion serializers render the password column, and they render the stored (encoded) password. |
| `Serializers.RenderAdminList` | users/serializers.py:43-46 | A record rendered by the list serializer is exactly its id and email. |
| `Serializers.RenderUser` | users/serializers.py:55-59 | A record rendered by the self-service serializer shows exactly the five profile columns, with the stored email. |
| `Serializers.Render` | users/serializers.py:43-82 | A rendered record holds only model columns, each with the record's stored value. It holds exactly the columns the serializer renders. |
| `Serializers.CheckCharKey` | users/serializers.py:10-27 | A password key passes exactly when it carries a text or integer that is non-blank once stripped and free of U+0000. For `current_password` that text must also check. A text holding U+0000 is refused with the null-character error. |
| `Serializers.NullCharactersRejected` | users/serializers.py:10-40 | A password field holding U+0000 makes the deletion and password-change serializers reject the payload, with the null-character error on that field. |
| `Serializers.SetPasswordReachesHook` | users/serializers.py:29-36 | With both passwords present as non-blank text free of U+0000, and the current one checking, validation is the hook on the two stripped texts. |
| `Serializers.KeyErrorRejects` | users/views.py:71-72 | A payload with a failing key check is rejected, with that key's error. |
| `Serializers.SetPasswordValidation` | users/serializers.py:10-40 | A password change validates exactly when both passwords are non-blank and free of U+0000, the current one checks, the new one is strong, and the two differ. The validated data is then the two stripped texts. |
| `Serializers.WrongCurrentPasswordRejected` | users/serializers.py:18-23 | Both confirming serializers reject a non-blank current password free of U+0000 that does not check, with `invalid_password` on `current_password`. |
| `Serializers.WeakPasswordRejectedFirst` | users/serializers.py:33-35 | With both fields non-blank and free of U+0000 and the current password checking, a weak new password is reported as weak, even when it equals the current one. |
| `Serializers.SameAsOldRejected` | users/serializers.py:34-35 | A strong new password equal to the current one, both non-blank and free of U+0000, is rejected as "the same as old password". |
| `Serializers.DeleteValidation` | users/serializers.py:75-82 | The corrected deletion serializer accepts exactly a current password that is non-blank, free of U+0000 and checks, with an `is_active`, if sent, that reads as a boolean. |
| `Serializers.DeleteIgnoresPasswordAsWritten` | users/serializers.py:75-82 | As written, deletion validation accepts exactly the payloads whose `is_active`, if sent, reads as a boolean. No password is involved. |
| `Serializers.TakenEmailRejected` | users/models.py:10 | Registration and the admin serializer reject an email another row holds, with a uniqueness error on `email`. The uniqueness validator runs first, so the error is the uniqueness one even when the text also holds U+0000; that case needs a stored email holding U+0000, which only a backend that stores U+0000 (such as SQLite) can hold. |
| `Serializers.UserUpdateFraming` | users/serializers.py:55-59 | An update through the self-service serializer changes at most username, name, phone and birth date. |
| `Serializers.UserAttrs` | users/serializers.py:55-59 | The self-service serializer's validated data holds only username, name, phone and birth date. |
| `Serializers.ValidatedUpdateKeepsWellFormed` | users/views.py:53-56 | Writing validated data onto a well-formed record keeps it well formed. |
| `Serializers.WritableColumnEditable` | users/serializers.py:43-82 | Every model column a serializer accepts is editable, so the id never is. |
| `Serializers.AdminHasNoNewPassword` | users/serializers.py:49-52 | The admin serializer's validated data never holds a `new_password`. |
| `Serializers.ValidatedUpdateKeepsValid` | users/views.py:53-56 | Writing validated data onto the row it was validated against keeps the users table valid. |
| `Serializers.UpdateKeepsValid` | users/models.py:10 | Data that leaves the id alone, is admissible and brings no email another row holds keeps the table valid when written onto a row. |
| `Dispatch.PermissionFor` | users/views.py:23-32 | As written, only `create` is open, and only `me` needs a mere login. Every other action, the password change included, is for staff. |
| `Dispatch.IntendedPermissionFor` | users/views.py:23-32 | Corrected, only `create` is open, `me` and `set_password` need a login, and every other action is for staff. |
| `Dispatch.IntendedPermissionIsTable` | users/views.py:23-32 | The corrected permission choice is the intended table: registration open, own account and password change for logged-in users, the rest for staff. |
| `Dispatch.PermissionAsWrittenDiffers` | users/views.py:30 | The permission choice as written agrees with the table on every action but the password change. |
| `Dispatch.SetPasswordAdminOnlyAsWritten` | users/views.py:18-32 | As written, the password change admits exactly staff callers. |
| `Dispatch.SetPasswordOpenToUsers` | users/views.py:30-31 | Corrected, the password change admits exactly authenticated callers. |
| `Dispatch.NonStaffConfined` | users/views.py:18-32 | A non-staff caller passes exactly for registration, and when logged in for `me` and the password change. |
| `Dispatch.IntendedSerializerIsTable` | users/views.py:34-47 | The corrected serializer choice is the intended table per action, method and staff flag. |
| `Dispatch.SerializerAsWrittenDiffers` | users/views.py:45-46 | The serializer choice as written agrees with the table except on a non-staff password change. |
| `Dispatch.SerializerFor` | users/views.py:34-47 | As written, the password-change serializer is never chosen. Registration's serializer serves exactly `create`. The deletion serializer serves exactly a non-staff `me` DELETE. The list serializer serves exactly a staff GET without a primary key, outside `create`. |
| `Dispatch.IntendedSerializerFor` | users/views.py:34-47 | Corrected, the password-change serializer serves exactly a non-staff `set_password`. The other serializers are chosen as written. |
| `Dispatch.CreateIsOpen` | users/views.py:23-36 | Registration is always open and always uses the registration serializer, whoever asks. |
| `Dispatch.StaffSerializers` | users/views.py:37-40 | Staff get the list serializer exactly for a GET without a primary key, and the admin serializer otherwise, never the deletion one. |
| `Dispatch.OwnAccountSerializers` | users/views.py:41-44 | A non-staff `me` uses the deletion serializer exactly for DELETE, and the self-service one otherwise. |
| `Dispatch.NonStaffSetPasswordAsWritten` | users/views.py:45-47 | As written, a non-staff password change falls through to the self-service serializer. |
| `Views.MeAction` | users/views.py:49-67 | A `me` request that is not answered with 200 or 204 changes nothing and has no effects. |
| `Views.Update` | users/views.py:53-56 | A rejected update changes nothing. |
| `Views.MeAsWritten` | users/views.py:49-67 | As written, `me` never stores anything and never answers 200 or 204. GET, PUT and PATCH are server errors. DELETE is a bad request or a server error. |
| `Views.Deactivate` | users/views.py:57-67 | A deactivation answers 204 exactly when validation succeeded. Otherwise it is a bad request that changes nothing. |
| `Views.StorePassword` | users/views.py:69-80 | A password change that validated answers 204 and changes only the caller's password. It then deletes the caller's token, with the save recorded before the logout. A failed one changes nothing. |
| `Views.SetPasswordAction` | users/views.py:69-80 | A password change answers 204 or 400. A 400 changes nothing. A 204 changes only the caller's password, and logs the caller out. |
| `Views.SetPasswordAsWritten` | users/views.py:69-74 | As written, a password change stores nothing and answers 400 or 500. |
| `Views.Identify` | users/views.py:20-21 | A token authenticates exactly when some active user holds it. An authenticated caller is an existing active user, with that user's staff flag. |
| `Views.Handle` | users/views.py:49-80 | A handled request that is not answered with 200 or 204 changes nothing. |
| `Views.Serve` | users/views.py:15-32 | A request that is refused, by authentication, permission, method or validation, changes nothing. |
| `Views.RequestPermission` | users/views.py:18-32 | The permission a request must pass: its action's when the route maps the method, else the view set's default `IsAdminUser`. Its meaning is stated by `Views.UnmappedMethodRefused`, `Views.ServeDispatches` and `Views.AnonymousRefused`. |
| `Views.UnmappedMethodRefused` | users/views.py:18-32 | A method the route does not map falls under the default staff-only guard. Anonymous or rejected credentials are told they are not authenticated (401 when the first authentication class is token authentication, 403 otherwise), non-staff get 403, and only staff get 405. Nothing changes. |
| `Views.DeactivationOnlyClearsActive` | users/views.py:61-67 | A deactivation changes only the caller's `is_active`, to false, and no other row. It deletes the caller's token and keeps all others. The save comes before the token deletion. |
| `Views.NonStaffDeactivation` | users/views.py:57-65 | A non-staff `me` DELETE succeeds exactly when the current password is non-blank, free of U+0000 and checks, and `is_active`, if sent, reads as a boolean. A wrong password is answered with `invalid_password` and changes nothing. |
| `Views.NonStaffDeleteAsWritten` | users/views.py:57-61 | As written, a non-staff `me` DELETE is a server error exactly when `is_active`, if sent, reads as a boolean, so also for an empty payload. Otherwise it is a bad request. Nothing is stored. |
| `Views.StaffDeactivationRejectsOwnEmail` | users/views.py:37-40 | A staff `me` DELETE that repeats the caller's own email is rejected as not unique, and the account stays as it was. |
| `Views.MeReadRenders` | users/views.py:51-52 | `me` GET changes nothing. It renders the five profile columns for non-staff, and only id and email for staff. As written it is a server error. |
| `Views.MeUpdateFraming` | users/views.py:53-56 | A non-staff update changes only username, name, phone and birth date of the caller's row. It changes no other row and no credential, and renders the updated record. |
| `Views.RenderUserKeepsEmail` | users/serializers.py:55-59 | A record whose email is unchanged renders the five profile columns with the old email. |
| `Views.NewPasswordOf` | users/views.py:75 | The password `set_password` stores, `validated_data.get('new_password')`, which is none when the serializer has no such key. Its meaning is stated by `Views.PasswordChange` and `Views.StaffPasswordChangeLocksOut`. |
| `Views.PasswordChange` | users/views.py:69-80 | A non-staff password change succeeds exactly when both passwords are non-blank and free of U+0000, the current one checks, the new one is strong, and they differ. Afterwards only the new password checks. |
| `Views.PasswordChangeThenLogin` | users/views.py:75-76 | After a password change an active user logs in by email with the new password, and the old one is refused. |
| `Views.StaffPasswordChangeLocksOut` | users/views.py:69-76 | A staff password change that succeeds leaves an unusable password that no attempt checks against. |
| `Views.AsWrittenNeverStores` | users/views.py:49-80 | As written, `me` and `set_password` never change anything and never answer 200 or 204. |
| `Views.DeactivateKeepsValid` | users/views.py:61-65 | A deactivation keeps the state invariant. |
| `Views.StorePasswordKeepsValid` | users/views.py:74-78 | Storing a new password keeps the state invariant. |
| `Views.MeKeepsValid` | users/views.py:49-67 | Every `me` request keeps the state invariant: valid users table, unique token keys, tokens and session only for existing users. |
| `Views.SetPasswordKeepsValid` | users/views.py:69-80 | Every password change keeps the state invariant. |
| `Views.HandleKeepsValid` | users/views.py:49-80 | Every handled request keeps the state invariant. |
| `Views.ServeDispatches` | users/views.py:23-32 | A request is either refused with nothing changed, or handled for the authenticated user it identified. |
| `Views.ServeKeepsValid` | users/views.py:15-80 | Every request keeps the state invariant. |
| `Views.AnonymousRefused` | users/views.py:23-32 | A request without credentials is answered "not authenticated" and changes nothing. |
| `Views.HandleTouchesOnlyCaller` | users/views.py:20-21 | A handled request changes no row but the requester's. A 204 answer has logged the requester out. |
| `Views.ServeTouchesOnlyCaller` | users/views.py:20-21 | A request changes no row but that of the user it authenticated as. |
| `Views.LogoutRevokesCredentials` | users/utils.py:13-16 | After a 204 answer, the token the request used authenticates nobody. With sessions on, the session is anonymous. |

## Left out

- `users/urls.py` (routing) is not modelled. A request names its route (`me` or `set_password`) and its method directly.
- The model view set's own handlers (`create`, `list`, `retrieve`, `update`, `destroy` on the detail routes) are not modelled. Only the choice of permission and serializer for them is (`Dispatch`).
- `users/permissions.py` (`CurrentUserOrAdmin`) is not part of this model. It is modelled as admitting every authenticated caller, which is what it does on routes without a primary key, where no object-level check runs.
- `users/constants.py` (the error messages) and `users/managers.py` (`CustomUserManager`) are not part of this model. Errors are codes, not messages.
- Password hashing is idealised as collision-free. A raw text written into the password column (a staff `me` PUT that sends back the rendered hash, say) is stored as `Plain` and never checks, whereas Django checks any stored text that is a valid encoded hash; encoded hash formats are not modelled. `validate_password` (the strength validators) is a parameter, because the validators come from settings the model does not see.
- Authentication is token or session. The configured authentication classes and session internals are not part of this model. `Views.Identify` states the assumed behaviour: a token must belong to an active user, and a session is anonymous unless its user is active. Session authentication's CSRF enforcement is not modelled: the REST framework refuses an unsafe method (PUT, PATCH, DELETE, POST) from a session caller with 403 when the CSRF token is missing or invalid, and the model lets that caller through. Django's session-hash check is not modelled either: after a password change with `CREATE_SESSION_ON_LOGIN` off, Django ends the caller's session on its next use, while the model keeps it.
- The email format check of `EmailField`, and the date and datetime parsing of `DateField` and `DateTimeField`, are not modelled. Dates, datetimes and relations arrive already typed.
- Payload numbers are non-negative integers. Floats are not modelled, so the coercion of a float to text by a char field is not either. The boolean strings are those of the REST framework 3.x `BooleanField`. The absent-field rules of HTML form payloads are not modelled.
- A key with several problems reports one error, the first in the REST framework's order, instead of a list.
- The database backend is not part of this model. The uniqueness lookup is modelled as a search of the users map. A lookup the backend cannot run (PostgreSQL refuses a text holding U+0000) counts as "not taken" in the REST framework's uniqueness validator, and the model gives the same answer: such a backend stores no email holding U+0000, so no row is found and the U+0000 validator reports the error.
- `CustomUser.create` (models.py:20-22, printing `1` and calling a base method that does not exist) is not modelled. Nothing in the account endpoints calls it.
- The `assert user is not None` in `PasswordSerializer.validate` is not modelled. The requesting user is always present on these routes.
- Database transactions, concurrency and the ORM's query mechanics are not modelled. The users and token tables are maps.
- `Views.MeAction`: its own contract states only that a refused request changes nothing. What each method does is stated by `Views.MeReadRenders`, `Views.MeUpdateFraming`, `Views.DeactivationOnlyClearsActive` and `Views.NonStaffDeactivation`. Those lemmas cover the non-staff payloads in full and the staff payloads only for the cases named.

## Findings

| source | as written | input that shows it | evidently intended | confidence | as-written member | corrected member |
|---|---|---|---|---|---|---|
| users/views.py:30 | the password action's permission is looked up under the name `reset_password` | any authenticated non-staff user POSTs to `set_password`: the class-wide `IsAdminUser` applies, so the answer is 403 | `set_password` guarded by `CurrentUserOrAdmin` | high, not executed | `Dispatch.PermissionFor` (with `Dispatch.SetPasswordAdminOnlyAsWritten`, `Dispatch.PermissionAsWrittenDiffers`) | `Dispatch.IntendedPermissionFor` (with `Dispatch.SetPasswordOpenToUsers`, `Dispatch.IntendedPermissionIsTable`) |
| users/views.py:45 | the password-change serializer is selected under the name `reset_password` | a non-staff `set_password` POST is first refused with 403 (previous row); with that permission fixed, it is validated by the self-service serializer, which has no password fields, so no password is checked or set | `SetPasswordSerializer` for `set_password` | high, not executed | `Dispatch.SerializerFor` (with `Dispatch.SerializerAsWrittenDiffers`, `Dispatch.NonStaffSetPasswordAsWritten`) | `Dispatch.IntendedSerializerFor` (with `Dispatch.IntendedSerializerIsTable`, `Views.PasswordChange`) |
| users/views.py:52-61, users/views.py:74 | `me` and `set_password` reach `get_object()` on routes declared with `detail=False`, which carry no primary key | a valid `me` GET, or a `set_password` POST with a correct password: the lookup fails and the answer is a server error, with nothing stored | act on the requesting user (`get_instance`, views.py:20-21) | high, not executed | `Views.MeAsWritten`, `Views.SetPasswordAsWritten` (with `Views.AsWrittenNeverStores`) | `Views.MeAction`, `Views.SetPasswordAction` (with `Views.MeReadRenders`, `Views.PasswordChange`) |
| users/serializers.py:75-82 | `current_password` is declared by the parent serializer but not listed in `Meta.fields`, so the model serializer drops it | a non-staff `me` DELETE with an empty payload validates; `get_object()` then fails (previous row), so the answer is a server error where a bad request for the missing password was due, and once that lookup is fixed the account would be deactivated without any password | deletion confirmed by the current password | medium, not executed | `Serializers.DeleteProjectionAsWritten` (with `Serializers.DeleteIgnoresPasswordAsWritten`, `Serializers.ValidateAsWritten`, `Views.NonStaffDeleteAsWritten`) | `Serializers.ProjectionOf` for `DeleteSerializer` (with `Serializers.DeleteValidation`, `Views.NonStaffDeactivation`) |

=== FILE: dispatch.dfy ===
/**
 * How the account view set picks, for each request, the permission that guards it and
 * the serializer that validates and renders it. The view tests action *names*, so the
 * selection is modelled on `Action.Name()` exactly as written, next to a reference
 * table that states the intended choice per action.
 */
module Dispatch {
  import opened Models
  import opened Serializers

  /** The view set's actions: the six the model view set routes, and the two extra ones. */
  datatype Action = Create | List | Retrieve | Update | PartialUpdate | Destroy | Me | SetPassword
  {
    /** The name the router gives the action (`self.action`); an extra action is named after its method. */
    function Name(): string {
      match this
      case Create        => "create"
      case List          => "list"
      case Retrieve      => "retrieve"
      case Update        => "update"
      case PartialUpdate => "partial_update"
      case Destroy       => "destroy"
      case Me            => "me"
      case SetPassword   => "set_password"
    }
  }

  datatype Method = Get | Post | Put | Patch | Delete

  datatype Permission = AllowAny | IsAdminUser | CurrentUserOrAdmin

  /** Who is asking: nobody, or an authenticated user with their staff flag. */
  datatype Caller = Anonymous | Authenticated(id: UserId, isStaff: bool)
  {
    /** `request.user.is_staff`; the anonymous user is not staff. */
    predicate IsStaff() {
      Authenticated? && isStaff
    }
  }

  /** Whether a permission lets a caller through. */
  predicate Admits(p: Permission, c: Caller) {
    match p
    case AllowAny => true
    case IsAdminUser => c.IsStaff()
    case CurrentUserOrAdmin => c.Authenticated?
  }

  /** Whether the route of an action carries a primary key (`detail=True` routes do). */
  predicate HasPk(a: Action) {
    a in {Retrieve, Update, PartialUpdate, Destroy}
  }

  // ---------------------------------------------------------------------------
  // Permissions

  /**
   * The view set's `permission_classes`: the guard of every request no branch of
   * `get_permissions` picks a guard for, among them a request whose method the route does
   * not map (its action is then unnamed).
   */
  const DefaultPermission: Permission := IsAdminUser

  /**
   * `get_permissions` as written: the password action is looked up under the name
   * `reset_password`, which no action has, so it keeps the class-wide `IsAdminUser`.
   */
  function PermissionFor(a: Action): (p: Permission)
    ensures p == AllowAny <==> a == Create
    ensures p == CurrentUserOrAdmin <==> a == Me
    ensures p == IsAdminUser <==> a != Create && a != Me
  {
    if a.Name() == "create" then AllowAny
    else if a.Name() == "list" then IsAdminUser
    else if a.Name() == "me" then CurrentUserOrAdmin
    else if a.Name() in ["reset_password"] then CurrentUserOrAdmin
    else DefaultPermission
  }

  /**
   * `get_permissions` with the password action looked up under its own name: only
   * registration is open, the caller's own account and password need a login, and every
   * other action is for staff.
   */
  function IntendedPermissionFor(a: Action): (p: Permission)
    ensures p == AllowAny <==> a == Create
    ensures p == CurrentUserOrAdmin <==> a == Me || a == SetPassword
    ensures p == IsAdminUser <==> a != Create && a != Me && a != SetPassword
  {
    if a.Name() == "create" then AllowAny
    else if a.Name() == "list" then IsAdminUser
    else if a.Name() == "me" then CurrentUserOrAdmin
    else if a.Name() in ["set_password"] then CurrentUserOrAdmin
    else DefaultPermission
  }

  /** The intended guard of each action: registration is open, the caller's own account needs a login, the rest is for staff. */
  function PermissionTable(a: Action): Permission {
    match a
    case Create => AllowAny
    case Me | SetPassword => CurrentUserOrAdmin
    case List | Retrieve | Update | PartialUpdate | Destroy => IsAdminUser
  }

  /** The corrected selection is the table. */
  lemma IntendedPermissionIsTable(a: Action)
    ensures IntendedPermissionFor(a) == PermissionTable(a)
  {
    match a
    case SetPassword => assert a.Name() == "set_password";
    case _ =>
  }

  /** As written, the selection agrees with the table on every action except the password change. */
  lemma PermissionAsWrittenDiffers(a: Action)
    ensures PermissionFor(a) == PermissionTable(a) <==> a != SetPassword
  {
  }

  /** As written, nobody but staff may change a password through the password action. */
  lemma SetPasswordAdminOnlyAsWritten(c: Caller)
    ensures Admits(PermissionFor(SetPassword), c) <==> c.IsStaff()
  {
  }

  /** With the correction, every logged-in caller may change their password, and nobody else. */
  lemma SetPasswordOpenToUsers(c: Caller)
    ensures Admits(IntendedPermissionFor(SetPassword), c) <==> c.Authenticated?
  {
    IntendedPermissionIsTable(SetPassword);
  }

  /** Registration is open to everyone, and every action outside the caller's own account is refused to non-staff. */
  lemma NonStaffConfined(a: Action, c: Caller)
    requires !c.IsStaff()
    ensures Admits(IntendedPermissionFor(a), c) <==> a == Create || (c.Authenticated? && (a == Me || a == SetPassword))
  {
    IntendedPermissionIsTable(a);
  }

  // ---------------------------------------------------------------------------
  // Serializers

  /**
   * `get_serializer_class` as written: registration first, then every staff request
   * (list serializer for a GET without a primary key), then `me`, then the password
   * action under the name `reset_password`, then the class default.
   */
  function SerializerFor(a: Action, m: Method, isStaff: bool, hasPk: bool): (r: SerializerKind)
    ensures r != SetPasswordSerializer
    ensures r == CreateSerializer <==> a == Create
    ensures r == DeleteSerializer <==> a == Me && m == Delete && !isStaff
    ensures r == AdminListSerializer <==> a != Create && isStaff && m == Get && !hasPk
  {
    if a.Name() == "create" then CreateSerializer
    else if isStaff then
      if m == Get && !hasPk then AdminListSerializer else AdminSerializer
    else if a.Name() == "me" then
      if m == Delete then DeleteSerializer else UserSerializer
    else if a.Name() == "reset_password" then SetPasswordSerializer
    else UserSerializer
  }

  /**
   * `get_serializer_class` with the password action looked up under its own name: the
   * password-change serializer serves exactly a non-staff password change.
   */
  function IntendedSerializerFor(a: Action, m: Method, isStaff: bool, hasPk: bool): (r: SerializerKind)
    ensures r == SetPasswordSerializer <==> a == SetPassword && !isStaff
    ensures r == CreateSerializer <==> a == Create
    ensures r == DeleteSerializer <==> a == Me && m == Delete && !isStaff
    ensures r == AdminListSerializer <==> a != Create && isStaff && m == Get && !hasPk
  {
    if a.Name() == "create" then CreateSerializer
    else if isStaff then
      if m == Get && !hasPk then AdminListSerializer else AdminSerializer
    else if a.Name() == "me" then
      if m == Delete then DeleteSerializer else UserSerializer
    else if a.Name() == "set_password" then SetPasswordSerializer
    else UserSerializer
  }

  /**
   * The intended serializer per action: registration always uses the registration
   * serializer; staff use the admin serializers; a user's own account uses the
   * deletion serializer to delete and the self-service one otherwise; the password
   * action uses the password-change serializer.
   */
  function SerializerTable(a: Action, m: Method, isStaff: bool, hasPk: bool): SerializerKind {
    match a
    case Create => CreateSerializer
    case _ =>
      if isStaff then (if m == Get && !hasPk then AdminListSerializer else AdminSerializer)
      else match a
        case Me => if m == Delete then DeleteSerializer else UserSerializer
        case SetPassword => SetPasswordSerializer
        case _ => UserSerializer
  }

  /** The corrected selection is the table. */
  lemma IntendedSerializerIsTable(a: Action, m: Method, isStaff: bool, hasPk: bool)
    ensures IntendedSerializerFor(a, m, isStaff, hasPk) == SerializerTable(a, m, isStaff, hasPk)
  {
    match a
    case SetPassword => assert a.Name() == "set_password";
    case _ =>
  }

  /** As written, the selection agrees with the table except on a non-staff password change. */
  lemma SerializerAsWrittenDiffers(a: Action, m: Method, isStaff: bool, hasPk: bool)
    ensures SerializerFor(a, m, isStaff, hasPk) == SerializerTable(a, m, isStaff, hasPk)
      <==> !(a == SetPassword && !isStaff)
  {
  }

  /** Registration gets the open permission and the registration serializer whoever asks. */
  lemma CreateIsOpen(m: Method, isStaff: bool, hasPk: bool)
    ensures PermissionFor(Create) == AllowAny && IntendedPermissionFor(Create) == AllowAny
    ensures SerializerFor(Create, m, isStaff, hasPk) == CreateSerializer
    ensures IntendedSerializerFor(Create, m, isStaff, hasPk) == CreateSerializer
  {
  }

  /**
   * A staff request outside registration gets the list serializer exactly when it is a
   * GET on a route without a primary key (so a staff GET of their own account renders
   * only the id and the email), and the admin serializer otherwise.
   */
  lemma StaffSerializers(a: Action, m: Method)
    requires a != Create
    ensures SerializerFor(a, m, true, HasPk(a)) == AdminListSerializer <==> m == Get && !HasPk(a)
    ensures SerializerFor(a, m, true, HasPk(a)) != AdminListSerializer ==> SerializerFor(a, m, true, HasPk(a)) == AdminSerializer
    ensures SerializerFor(Me, m, true, false) != DeleteSerializer
  {
  }

  /** A non-staff caller's own account: the deletion serializer for DELETE, the self-service one for the other methods. */
  lemma OwnAccountSerializers(m: Method)
    ensures SerializerFor(Me, m, false, false) == DeleteSerializer <==> m == Delete
    ensures m != Delete ==> SerializerFor(Me, m, false, false) == UserSerializer
  {
  }

  /** As written, a non-staff password change falls through to the class default, the self-service serializer. */
  lemma NonStaffSetPasswordAsWritten(m: Method, hasPk: bool)
    ensures SerializerFor(SetPassword, m, false, hasPk) == UserSerializer
  {
  }
}

=== FILE: models.dfy ===
/**
 * The account record (`CustomUser`): its fields, what each field admits, the stored
 * password, and the invariants the users table keeps (ids match keys, emails are unique,
 * every record is well formed). Email is the login identifier.
 */
module Models {
  import opened Wrappers

  type UserId = nat

  /**
   * What the password column holds. Hashing is idealised as collision-free: `Hashed(raw)`
   * matches exactly the raw password it was made from. A string written into the column
   * without hashing is `Plain`, and an unusable password is what setting `None` produces;
   * neither ever matches.
   */
  datatype StoredPassword = Unusable | Hashed(raw: string) | Plain(text: string)

  /** The user's `set_password`: hashes a raw password, or marks the password unusable for `None`. */
  function MakePassword(raw: Option<string>): StoredPassword {
    match raw
    case Some(p) => Hashed(p)
    case None => Unusable
  }

  /** The user's `check_password`. */
  predicate CheckPassword(stored: StoredPassword, raw: string) {
    stored.Hashed? && stored.raw == raw
  }

  /** After setting a password, exactly that password checks; after setting `None`, none does. */
  lemma MakePasswordChecks(raw: Option<string>, attempt: string)
    ensures CheckPassword(MakePassword(raw), attempt) <==> raw == Some(attempt)
  {
  }

  /** The columns of `CustomUser`: those inherited from Django's `AbstractUser` and its own. */
  datatype Field =
    | Id | Password | LastLogin | IsSuperuser | Username | FirstName | LastName
    | Email | IsStaff | IsActive | DateJoined | Name | BirthDate | Phone
    | Groups | UserPermissions

  /** Every column, in declaration order (what `fields = '__all__'` expands to). */
  const AllFields: seq<Field> :=
    [Id, Password, LastLogin, IsSuperuser, Username, FirstName, LastName,
     Email, IsStaff, IsActive, DateJoined, Name, BirthDate, Phone,
     Groups, UserPermissions]

  lemma AllFieldsComplete(f: Field)
    ensures f in AllFields
  {
  }

  /** The column type, as far as validation cares. */
  datatype Kind = AutoKind | TextKind | BoolKind | DateKind | DateTimeKind | RelationKind

  /** The declaration options of one column. */
  datatype FieldRules = FieldRules(
    kind: Kind,
    maxLength: Option<nat>,
    blank: bool,       // the empty string is admitted
    nullable: bool,    // the column admits NULL
    hasDefault: bool,
    editable: bool,    // false for the auto-assigned primary key
    unique: bool)

  /** The declaration of each column: the model's own (username, email, name, birth_date, phone) and AbstractUser's. */
  function Rules(f: Field): (r: FieldRules) {
    match f
    case Id              => FieldRules(AutoKind, None, true, false, false, false, true)
    case Password        => FieldRules(TextKind, Some(128), false, false, false, true, false)
    case LastLogin       => FieldRules(DateTimeKind, None, true, true, false, true, false)
    case IsSuperuser     => FieldRules(BoolKind, None, true, false, true, true, false)
    case Username        => FieldRules(TextKind, Some(200), false, false, false, true, false)
    case FirstName       => FieldRules(TextKind, Some(150), true, false, false, true, false)
    case LastName        => FieldRules(TextKind, Some(150), true, false, false, true, false)
    case Email           => FieldRules(TextKind, Some(254), false, false, false, true, true)
    case IsStaff         => FieldRules(BoolKind, None, true, false, true, true, false)
    case IsActive        => FieldRules(BoolKind, None, true, false, true, true, false)
    case DateJoined      => FieldRules(DateTimeKind, None, false, false, true, true, false)
    case Name            => FieldRules(TextKind, Some(200), true, false, false, true, false)
    case BirthDate       => FieldRules(DateKind, None, true, true, false, true, false)
    case Phone           => FieldRules(TextKind, Some(20), true, true, false, true, false)
    case Groups          => FieldRules(RelationKind, None, true, false, false, true, false)
    case UserPermissions => FieldRules(RelationKind, None, true, false, false, true, false)
  }

  /** A field value as it crosses the API: a payload entry or a rendered column. */
  datatype Value =
    | Num(n: nat)
    | Text(s: string)
    | Flag(b: bool)
    | Day(d: int)
    | Moment(t: int)
    | Ids(ids: set<nat>)
    | Encoded(p: StoredPassword)
    | Null

  /** Whether a value fits a column declared with `rules`, bounds included. */
  predicate Conforms(rules: FieldRules, v: Value) {
    if v.Null? then rules.nullable
    else match rules.kind
      case AutoKind => v.Num?
      case TextKind =>
        && v.Text?
        && (rules.blank || v.s != "")
        && (rules.maxLength.None? || |v.s| <= rules.maxLength.value)
      case BoolKind => v.Flag?
      case DateKind => v.Day?
      case DateTimeKind => v.Moment?
      case RelationKind => v.Ids?
  }

  /** Whether `v` is a value column `f` admits. */
  predicate Admissible(f: Field, v: Value) {
    Conforms(Rules(f), v)
  }

  /** One account row. */
  datatype User = User(
    id: UserId,
    password: StoredPassword,
    lastLogin: Option<int>,
    isSuperuser: bool,
    username: string,
    firstName: string,
    lastName: string,
    email: string,
    isStaff: bool,
    isActive: bool,
    dateJoined: int,
    name: string,
    birthDate: Option<int>,
    phone: Option<string>,
    groups: set<nat>,
    userPermissions: set<nat>)

  /** Reads one column. The password column reads as its stored (encoded) form. */
  function Get(u: User, f: Field): (v: Value) {
    match f
    case Id              => Num(u.id)
    case Password        => Encoded(u.password)
    case LastLogin       => if u.lastLogin.Some? then Moment(u.lastLogin.value) else Null
    case IsSuperuser     => Flag(u.isSuperuser)
    case Username        => Text(u.username)
    case FirstName       => Text(u.firstName)
    case LastName        => Text(u.lastName)
    case Email           => Text(u.email)
    case IsStaff         => Flag(u.isStaff)
    case IsActive        => Flag(u.isActive)
    case DateJoined      => Moment(u.dateJoined)
    case Name            => Text(u.name)
    case BirthDate       => if u.birthDate.Some? then Day(u.birthDate.value) else Null
    case Phone           => if u.phone.Some? then Text(u.phone.value) else Null
    case Groups          => Ids(u.groups)
    case UserPermissions => Ids(u.userPermissions)
  }

  /** A record is determined by its columns. */
  lemma GetDetermines(a: User, b: User)
    requires forall f :: Get(a, f) == Get(b, f)
    ensures a == b
  {
    assert a.id == b.id by { assert Get(a, Id) == Get(b, Id); }
    assert a.password == b.password by { assert Get(a, Password) == Get(b, Password); }
    assert a.lastLogin == b.lastLogin by { assert Get(a, LastLogin) == Get(b, LastLogin); }
    assert a.isSuperuser == b.isSuperuser by { assert Get(a, IsSuperuser) == Get(b, IsSuperuser); }
    assert a.username == b.username by { assert Get(a, Username) == Get(b, Username); }
    assert a.firstName == b.firstName by { assert Get(a, FirstName) == Get(b, FirstName); }
    assert a.lastName == b.lastName by { assert Get(a, LastName) == Get(b, LastName); }
    assert a.email == b.email by { assert Get(a, Email) == Get(b, Email); }
    assert a.isStaff == b.isStaff by { assert Get(a, IsStaff) == Get(b, IsStaff); }
    assert a.isActive == b.isActive by { assert Get(a, IsActive) == Get(b, IsActive); }
    assert a.dateJoined == b.dateJoined by { assert Get(a, DateJoined) == Get(b, DateJoined); }
    assert a.name == b.name by { assert Get(a, Name) == Get(b, Name); }
    assert a.birthDate == b.birthDate by { assert Get(a, BirthDate) == Get(b, BirthDate); }
    assert a.phone == b.phone by { assert Get(a, Phone) == Get(b, Phone); }
    assert a.groups == b.groups by { assert Get(a, Groups) == Get(b, Groups); }
    assert a.userPermissions == b.userPermissions by { assert Get(a, UserPermissions) == Get(b, UserPermissions); }
  }

  /**
   * Assigns one column (`setattr`). A text assigned to the password column is stored as
   * is, unhashed. A value of the wrong shape leaves the record alone.
   */
  function Set(u: User, f: Field, v: Value): (r: User) {
    match f
    case Id              => if v.Num? then u.(id := v.n) else u
    case Password        => if v.Text? then u.(password := Plain(v.s)) else u
    case LastLogin       =>
      if v.Moment? then u.(lastLogin := Some(v.t)) else if v.Null? then u.(lastLogin := None) else u
    case IsSuperuser     => if v.Flag? then u.(isSuperuser := v.b) else u
    case Username        => if v.Text? then u.(username := v.s) else u
    case FirstName       => if v.Text? then u.(firstName := v.s) else u
    case LastName        => if v.Text? then u.(lastName := v.s) else u
    case Email           => if v.Text? then u.(email := v.s) else u
    case IsStaff         => if v.Flag? then u.(isStaff := v.b) else u
    case IsActive        => if v.Flag? then u.(isActive := v.b) else u
    case DateJoined      => if v.Moment? then u.(dateJoined := v.t) else u
    case Name            => if v.Text? then u.(name := v.s) else u
    case BirthDate       =>
      if v.Day? then u.(birthDate := Some(v.d)) else if v.Null? then u.(birthDate := None) else u
    case Phone           =>
      if v.Text? then u.(phone := Some(v.s)) else if v.Null? then u.(phone := None) else u
    case Groups          => if v.Ids? then u.(groups := v.ids) else u
    case UserPermissions => if v.Ids? then u.(userPermissions := v.ids) else u
  }


  /**
   * Assigning a column changes that column only, and an admissible value reads back as
   * assigned (the password column reads back as the unhashed text).
   */
  lemma SetThenGet(u: User, f: Field, v: Value, g: Field)
    ensures g != f ==> Get(Set(u, f, v), g) == Get(u, g)
    ensures Admissible(f, v) && f != Password ==> Get(Set(u, f, v), f) == v
    ensures f == Password && v.Text? ==> Get(Set(u, f, v), f) == Encoded(Plain(v.s))
  {
    if g != f {
      SetOther(u, f, v, g);
    }
    if Admissible(f, v) && f != Password {
      SetSame(u, f, v);
    }
  }

  /** Assigning a column leaves the other columns alone. */
  lemma SetOther(u: User, f: Field, v: Value, g: Field)
    requires g != f
    ensures Get(Set(u, f, v), g) == Get(u, g)
  {
    match f
    case Id => case Password => case LastLogin => case IsSuperuser =>
    case Username => case FirstName => case LastName => case Email =>
    case IsStaff => case IsActive => case DateJoined => case Name =>
    case BirthDate => case Phone => case Groups => case UserPermissions =>
  }

  /** An admissible value assigned to a column other than the password reads back unchanged. */
  lemma SetSame(u: User, f: Field, v: Value)
    requires Admissible(f, v) && f != Password
    ensures Get(Set(u, f, v), f) == v
  {
  }


  /**
   * The bounds a stored account keeps: `username` and `name` at most 200 characters,
   * `phone` at most 20 when present, `email` and `username` not blank, and the bounds of
   * the inherited columns.
   */
  predicate WellFormed(u: User) {
    && u.email != "" && |u.email| <= 254
    && u.username != "" && |u.username| <= 200
    && |u.name| <= 200
    && |u.firstName| <= 150 && |u.lastName| <= 150
    && (u.phone.Some? ==> |u.phone.value| <= 20)
  }

  /** The explicit bounds agree with the column declarations, for every column but the encoded password. */
  lemma WellFormedAgreesWithRules(u: User)
    ensures WellFormed(u) <==> forall f | f != Password :: Admissible(f, Get(u, f))
  {
    if WellFormed(u) {
      forall f | f != Password
        ensures Admissible(f, Get(u, f))
      {
        ColumnAdmissible(u, f);
      }
    }
    if forall f | f != Password :: Admissible(f, Get(u, f)) {
      assert Admissible(Email, Get(u, Email));
      assert Admissible(Username, Get(u, Username));
      assert Admissible(Name, Get(u, Name));
      assert Admissible(FirstName, Get(u, FirstName));
      assert Admissible(LastName, Get(u, LastName));
      assert Admissible(Phone, Get(u, Phone));
    }
  }

  /** Each column of a well-formed record is admissible for it. */
  lemma ColumnAdmissible(u: User, f: Field)
    requires WellFormed(u) && f != Password
    ensures Admissible(f, Get(u, f))
  {
    match f
    case Id => case LastLogin => case IsSuperuser =>
    case Username => case FirstName => case LastName => case Email =>
    case IsStaff => case IsActive => case DateJoined => case Name =>
    case BirthDate => case Phone => case Groups => case UserPermissions =>
  }


  /** Assigning an admissible value keeps a record well formed. */
  lemma SetKeepsWellFormed(u: User, f: Field, v: Value)
    requires WellFormed(u) && Admissible(f, v)
    ensures WellFormed(Set(u, f, v))
  {
  }

  /** Optionality as declared: `name` may be blank, `birth_date` and `phone` may be null, `username` and `email` may be neither. */
  lemma Optionality()
    ensures Admissible(Name, Text("")) && Admissible(BirthDate, Null) && Admissible(Phone, Null)
    ensures !Admissible(Username, Text("")) && !Admissible(Username, Null)
    ensures !Admissible(Email, Text("")) && !Admissible(Email, Null)
    ensures !Admissible(Name, Null)
  {
  }

  /** The length bounds declared on `username`, `name` and `phone`. */
  lemma LengthBounds(s: string)
    ensures Admissible(Username, Text(s)) <==> s != "" && |s| <= 200
    ensures Admissible(Name, Text(s)) <==> |s| <= 200
    ensures Admissible(Phone, Text(s)) <==> |s| <= 20
  {
  }

  /** Each row is stored under its own id. */
  predicate IdsMatch(users: map<UserId, User>) {
    forall i | i in users :: users[i].id == i
  }

  /** No two rows share an email (the unique constraint on `email`). */
  predicate EmailsUnique(users: map<UserId, User>) {
    forall i, j | i in users && j in users && users[i].email == users[j].email :: i == j
  }

  /** The users table invariant. */
  predicate ValidUsers(users: map<UserId, User>) {
    && IdsMatch(users)
    && EmailsUnique(users)
    && forall i | i in users :: WellFormed(users[i])
  }

  /** Whether some row other than `except` holds `v` in column `f` (a uniqueness check's query). */
  predicate Taken(users: map<UserId, User>, f: Field, v: Value, except: Option<UserId>) {
    exists i | i in users :: Some(i) != except && Get(users[i], f) == v
  }

  /** A row's own email is held by no other row of a table with unique emails. */
  lemma OwnEmailFree(users: map<UserId, User>, id: UserId)
    requires EmailsUnique(users) && id in users
    ensures !Taken(users, Email, Text(users[id].email), Some(id))
  {
    forall i | i in users && i != id
      ensures Get(users[i], Email) != Text(users[id].email)
    {
    }
  }

  /**
   * Replacing one row keeps the table valid when the new row is well formed, keeps its id
   * and does not take an email held by another row.
   */
  lemma ReplaceKeepsValid(users: map<UserId, User>, i: UserId, u: User)
    requires ValidUsers(users) && i in users
    requires u.id == i && WellFormed(u)
    requires !Taken(users, Email, Text(u.email), Some(i))
    ensures ValidUsers(users[i := u])
  {
  }

  /**
   * Password login by email, the login identifier (`USERNAME_FIELD`; `REQUIRED_FIELDS` is
   * empty, so nothing else is asked for): the row holding `email` is found, and
   * it is admitted only when it is active and the password checks.
   */
  function Authenticate(users: map<UserId, User>, email: string, raw: string): (r: Option<UserId>)
    requires EmailsUnique(users)
    ensures r.Some? <==> exists i | i in users :: users[i].email == email && users[i].isActive && CheckPassword(users[i].password, raw)
    ensures r.Some? ==> r.value in users && users[r.value].email == email
  {
    if exists i | i in users :: users[i].email == email then
      var i :| i in users && users[i].email == email;
      if users[i].isActive && CheckPassword(users[i].password, raw) then Some(i) else None
    else
      None
  }
}

=== FILE: serializers.dfy ===
/**
 * The serializers of the account API: which keys each one declares (with read-only,
 * write-only and required flags), how a payload is validated against them, how a record
 * is rendered through them, and how validated data is written back onto a record.
 *
 * Validation follows the REST framework's order: every writable declared key is checked
 * on its own (presence, null, shape and coercion, stripping, blank, then the field's
 * validators in their list order: uniqueness first, then length, then U+0000; then the
 * key's own `validate_<key>` hook), all key errors are collected,
 * and only when there are none does the serializer-wide `validate` hook run.
 */
module Serializers {
  import opened Wrappers
  import opened Strip
  import opened Models

  /** A payload or rendered key: a model column, or a password field a serializer declares itself. */
  datatype Key = ModelKey(field: Field) | CurrentPassword | NewPassword

  /** The flags of one declared key. */
  datatype FieldSpec = FieldSpec(readOnly: bool, writeOnly: bool, required: bool)

  /** The keys a serializer declares. */
  type Projection = map<Key, FieldSpec>

  datatype SerializerKind =
    | AdminListSerializer     // CustomAdminListSerializer
    | AdminSerializer         // CustomAdminSerializer
    | UserSerializer          // CustomUserSerializer
    | CreateSerializer        // CustomUserCreateSerializer
    | DeleteSerializer        // CustomUserDeleteSerializer
    | SetPasswordSerializer   // SetPasswordSerializer

  /**
   * The flags a model serializer derives for a column: read-only when listed so or not
   * editable; required when writable and the column has no default, is not blank-able
   * and is not nullable.
   */
  function ModelSpec(f: Field, readOnly: set<Field>, writeOnly: set<Field>): FieldSpec {
    var ro := f in readOnly || !Rules(f).editable;
    FieldSpec(ro, f in writeOnly, !ro && !Rules(f).hasDefault && !Rules(f).blank && !Rules(f).nullable)
  }

  /** A model serializer's projection: `Meta.fields`, `read_only_fields` and write-only `extra_kwargs`. */
  function ModelProjection(fields: set<Field>, readOnly: set<Field>, writeOnly: set<Field>): Projection {
    map f | f in fields :: ModelKey(f) := ModelSpec(f, readOnly, writeOnly)
  }

  /** What a model projection declares: exactly the listed columns, each with its derived flags. */
  lemma ModelProjectionHas(fields: set<Field>, readOnly: set<Field>, writeOnly: set<Field>, k: Key)
    ensures k in ModelProjection(fields, readOnly, writeOnly) <==> k.ModelKey? && k.field in fields
    ensures k in ModelProjection(fields, readOnly, writeOnly) ==>
      ModelProjection(fields, readOnly, writeOnly)[k] == ModelSpec(k.field, readOnly, writeOnly)
  {
    if k.ModelKey? && k.field in fields {
      assert ModelKey(k.field) == k;
    }
  }

  /** A plain `CharField` declared on a serializer: readable, writable and required. */
  const CharInput: FieldSpec := FieldSpec(false, false, true)

  /** Every column (`fields = '__all__'`). */
  const AllModelFields: set<Field> :=
    {Id, Password, LastLogin, IsSuperuser, Username, FirstName, LastName,
     Email, IsStaff, IsActive, DateJoined, Name, BirthDate, Phone,
     Groups, UserPermissions}

  lemma InAllModelFields(f: Field)
    ensures f in AllModelFields
  {
  }

  /**
   * The projection of each serializer. Only the two password-confirming serializers
   * declare `current_password`, only the password-change one declares `new_password`,
   * and the primary key, where declared, is read-only.
   */
  function ProjectionOf(kind: SerializerKind): (p: Projection)
    ensures CurrentPassword in p <==> kind == DeleteSerializer || kind == SetPasswordSerializer
    ensures NewPassword in p <==> kind == SetPasswordSerializer
    ensures CurrentPassword in p ==> p[CurrentPassword] == CharInput
    ensures ModelKey(Id) in p ==> p[ModelKey(Id)].readOnly
  {
    match kind
    case AdminListSerializer =>
      ModelProjection({Id, Email}, {}, {})
    case AdminSerializer =>
      ModelProjection(AllModelFields, {}, {})
    case UserSerializer =>
      ModelProjection({Email, Username, Name, Phone, BirthDate}, {Email}, {})
    case CreateSerializer =>
      ModelProjection(CreateFields, {}, {Password})
    case DeleteSerializer =>
      // current_password is listed next to the model fields (see DeleteProjectionAsWritten)
      ModelProjection({Password, IsActive}, {Password}, {})[CurrentPassword := CharInput]
    case SetPasswordSerializer =>
      map[CurrentPassword := CharInput, NewPassword := CharInput]
  }

  /**
   * The deletion serializer as written: a model serializer keeps only the keys in
   * `Meta.fields` and silently drops a key declared by a parent serializer that is not
   * listed there, so `current_password` is not part of it.
   */
  function DeleteProjectionAsWritten(): Projection {
    ModelProjection({Password, IsActive}, {Password}, {})
  }

  /** The projections as the code declares them: they differ only in the deletion serializer, which lacks `current_password`. */
  function ProjectionAsWritten(kind: SerializerKind): (p: Projection)
    ensures kind != DeleteSerializer ==> p == ProjectionOf(kind)
    ensures CurrentPassword in p <==> kind == SetPasswordSerializer
  {
    if kind == DeleteSerializer then DeleteProjectionAsWritten() else ProjectionOf(kind)
  }

  /** The keys a serializer renders. */
  function Readable(p: Projection): set<Key> {
    set k | k in p && !p[k].writeOnly
  }

  /** The keys a serializer accepts from a payload. */
  function Writable(p: Projection): set<Key> {
    set k | k in p && !p[k].readOnly
  }

  /** The keys a full (non-partial) payload must carry. */
  function RequiredKeys(p: Projection): set<Key> {
    set k | k in p && !p[k].readOnly && p[k].required
  }

  datatype ErrorCode =
    | Required | Blank | NullNotAllowed | Invalid | TooLong | NotUnique
    | NullCharacters     // a char field's text holds U+0000 (`null_characters_not_allowed`)
    | InvalidPassword   // the current password does not check
    | TooWeak           // the password-strength validators reject the new password
    | SameAsOld         // "New password is the same as old password!"

  /**
   * What a failed validation reports: per-key errors, a serializer-wide error, or a crash
   * on a missing key. `KeyMissing` stands for the `KeyError` of `PasswordSerializer.validate`,
   * which the code would answer with a server error; it cannot arise, because that hook
   * only runs on full (non-partial) validation, where both password keys are required.
   */
  datatype ValidationError =
    | FieldErrors(fields: map<Key, ErrorCode>)
    | NonFieldErrors(code: ErrorCode)
    | Details(code: ErrorCode)
    | KeyMissing

  /**
   * What validation may consult: the requesting user, the users table (for uniqueness),
   * the record being updated if any, whether the update is partial, and the
   * password-strength validators (`validate_password`), which are not modelled.
   */
  datatype Context = Context(
    caller: User,
    users: map<UserId, User>,
    instance: Option<UserId>,
    partial: bool,
    strong: (string, User) -> bool)

  /** The declaration a key is validated against; the serializers' own password keys are plain non-blank text. */
  function RulesOf(k: Key): FieldRules {
    match k
    case ModelKey(f) => Rules(f)
    case _ => FieldRules(TextKind, None, false, false, false, true, false)
  }

  /** The decimal digits of a natural number, as Python's `str` writes an integer. */
  function Decimal(n: nat): (r: string)
    ensures r != []
    ensures forall i | 0 <= i < |r| :: '0' <= r[i] <= '9'
  {
    var digit := [('0' as int + n % 10) as char];
    if n < 10 then digit else Decimal(n / 10) + digit
  }

  /** The number a string of decimal digits denotes, most significant digit first. */
  function DigitsValue(s: string): nat
  {
    if s == [] then 0
    else
      var c := s[|s| - 1];
      DigitsValue(s[..|s| - 1]) * 10 + (if '0' <= c <= '9' then c as int - '0' as int else 0)
  }

  /**
   * `Decimal` is the usual decimal spelling: its digits read back as the number, and it
   * has no leading zero unless the number is zero, so distinct numbers read as distinct
   * texts.
   */
  lemma {:induction false} DecimalReadsBack(n: nat)
    ensures DigitsValue(Decimal(n)) == n
    ensures Decimal(n)[0] != '0' || n == 0
  {
    if n >= 10 {
      DecimalReadsBack(n / 10);
      var d := Decimal(n / 10) + [('0' as int + n % 10) as char];
      assert d[..|d| - 1] == Decimal(n / 10);
      assert d[0] == Decimal(n / 10)[0];
    }
  }

  /**
   * The text a `CharField` reads from a payload value: a string stripped, an integer in
   * decimal; a boolean or any other value is not text.
   */
  function CharText(v: Value): (r: Option<string>)
    ensures r.Some? ==> Stripped(r.value)
    ensures v.Text? ==> r == Some(Trim(v.s))
    ensures r.Some? <==> v.Text? || v.Num?
  {
    match v
    case Text(s) => Some(Trim(s))
    case Num(n) => Some(Decimal(n))
    case _ => None
  }

  /** The strings a `BooleanField` reads as true (`TRUE_VALUES`) and as false (`FALSE_VALUES`). */
  const TrueTexts: set<string> := {"t", "T", "y", "Y", "yes", "Yes", "YES", "true", "True", "TRUE", "on", "On", "ON", "1"}
  const FalseTexts: set<string> := {"f", "F", "n", "N", "no", "No", "NO", "false", "False", "FALSE", "off", "Off", "OFF", "0"}

  /** The boolean a `BooleanField` reads from a payload value: a boolean, the integers 1 and 0, or one of the listed strings. */
  function BoolOf(v: Value): (r: Option<bool>)
    ensures v.Flag? ==> r == Some(v.b)
    ensures v.Text? ==> (r == Some(true) <==> v.s in TrueTexts) && (r == Some(false) <==> v.s in FalseTexts)
    ensures v.Num? ==> (r.Some? <==> v.n <= 1) && (r.Some? ==> r.value == (v.n == 1))
    ensures r.Some? ==> v.Flag? || v.Text? || v.Num?
  {
    match v
    case Flag(b) => Some(b)
    case Num(n) => if n == 1 then Some(true) else if n == 0 then Some(false) else None
    case Text(s) => if s in TrueTexts then Some(true) else if s in FalseTexts then Some(false) else None
    case _ => None
  }

  /** No string reads both as true and as false. */
  lemma BooleanTextsDisjoint()
    ensures TrueTexts !! FalseTexts
  {
  }

  /** The text a plain required char field accepts under `k`: text or an integer, not blank once stripped, without U+0000. */
  function TextInput(data: map<Key, Value>, k: Key): Option<string> {
    if k in data && CharText(data[k]).Some? && CharText(data[k]).value != "" && '\0' !in CharText(data[k]).value
    then CharText(data[k]) else None
  }

  /** The payload carries under `k` a non-blank text holding U+0000, which every char field refuses. */
  predicate NulInput(data: map<Key, Value>, k: Key) {
    k in data && CharText(data[k]).Some? && CharText(data[k]).value != "" && '\0' in CharText(data[k]).value
  }

  /**
   * What a field reads from one payload value, before its validators run: null only
   * where nullable, the right shape (a char field takes text or an integer, a boolean
   * field a boolean, 1 or 0, or one of the boolean strings), text stripped, and blank
   * only where allowed.
   */
  function ReadValue(rules: FieldRules, v: Value): (r: Result<Value, ErrorCode>)
    ensures v.Null? ==> (r.Success? <==> rules.nullable) && (r.Success? ==> r.value == Null)
    ensures r.Success? && !v.Null? && rules.kind == TextKind ==> CharText(v).Some? && r.value == Text(CharText(v).value)
    ensures r.Success? && !v.Null? && rules.kind == BoolKind ==> BoolOf(v).Some? && r.value == Flag(BoolOf(v).value)
  {
    if v.Null? then
      if rules.nullable then Success(Null) else Failure(NullNotAllowed)
    else match rules.kind
      case TextKind =>
        (match CharText(v)
         case None => Failure(Invalid)
         case Some(t) =>
           if t == "" then
             if rules.blank then Success(Text("")) else Failure(Blank)
           else Success(Text(t)))
      case BoolKind =>
        (match BoolOf(v)
         case Some(b) => Success(Flag(b))
         case None => Failure(Invalid))
      case AutoKind => if v.Num? then Success(v) else Failure(Invalid)
      case DateKind => if v.Day? then Success(v) else Failure(Invalid)
      case DateTimeKind => if v.Moment? then Success(v) else Failure(Invalid)
      case RelationKind => if v.Ids? then Success(v) else Failure(Invalid)
  }

  /**
   * A char field's own validators on the text it read, in the order the field appends
   * them: the maximum length, then U+0000. Any other value passes unchanged.
   */
  function CharValidators(rules: FieldRules, v: Value): (r: Result<Value, ErrorCode>)
    ensures r.Success? ==> r.value == v
    ensures v.Text? && rules.kind == TextKind ==>
      (r.Success? <==> (rules.maxLength.None? || |v.s| <= rules.maxLength.value) && '\0' !in v.s)
    ensures v.Text? && rules.kind == TextKind && rules.maxLength.Some? && |v.s| > rules.maxLength.value ==> r == Failure(TooLong)
  {
    if rules.kind == TextKind && v.Text? then
      if rules.maxLength.Some? && |v.s| > rules.maxLength.value then Failure(TooLong)
      else if '\0' in v.s then Failure(NullCharacters)
      else Success(v)
    else Success(v)
  }

  /**
   * One value checked against a declaration: what the field reads (`ReadValue`), then
   * its length and U+0000 validators. The accepted value conforms, and is what the field
   * reads from the input.
   */
  function CheckValue(rules: FieldRules, v: Value): (r: Result<Value, ErrorCode>)
    ensures r.Success? ==> Conforms(rules, r.value)
    ensures r.Success? && r.value.Text? ==> Stripped(r.value.s) && '\0' !in r.value.s
    ensures v.Null? ==> (r.Success? <==> rules.nullable)
    ensures r.Success? && !v.Null? && rules.kind == TextKind ==> CharText(v).Some? && r.value == Text(CharText(v).value)
    ensures r.Success? && !v.Null? && rules.kind == BoolKind ==> BoolOf(v).Some? && r.value == Flag(BoolOf(v).value)
  {
    match ReadValue(rules, v)
    case Failure(e) => Failure(e)
    case Success(w) => CharValidators(rules, w)
  }

  /**
   * A value that already conforms, stripped if it is text, is accepted unchanged, except
   * that a text holding U+0000 is refused.
   */
  lemma CheckValueAcceptsConforming(rules: FieldRules, v: Value)
    requires Conforms(rules, v) && (v.Text? ==> Stripped(v.s))
    ensures CheckValue(rules, v) == if v.Text? && '\0' in v.s then Failure(NullCharacters) else Success(v)
  {
    if !v.Null? && rules.kind == TextKind {
      ConformingText(rules, v);
    } else if !v.Null? && rules.kind == BoolKind {
      assert BoolOf(v) == Some(v.b);
    }
  }

  lemma ConformingText(rules: FieldRules, v: Value)
    requires rules.kind == TextKind && Conforms(rules, v) && v.Text? && Stripped(v.s)
    ensures CheckValue(rules, v) == if '\0' in v.s then Failure(NullCharacters) else Success(v)
  {
    TrimKeepsStripped(v.s);
    assert CharText(v) == Some(v.s);
  }

  /** A text or integer that is not blank once stripped, within the length bound and without U+0000, is accepted as that text. */
  lemma CheckValueAcceptsChar(rules: FieldRules, v: Value)
    requires rules.kind == TextKind && CharText(v).Some? && CharText(v).value != "" && '\0' !in CharText(v).value
    requires rules.maxLength.None? || |CharText(v).value| <= rules.maxLength.value
    ensures CheckValue(rules, v) == Success(Text(CharText(v).value))
  {
  }

  /** A text or integer that is not blank once stripped and within the length bound, but holds U+0000, is refused for it. */
  lemma CheckValueRefusesNul(rules: FieldRules, v: Value)
    requires rules.kind == TextKind && CharText(v).Some? && CharText(v).value != "" && '\0' in CharText(v).value
    requires rules.maxLength.None? || |CharText(v).value| <= rules.maxLength.value
    ensures CheckValue(rules, v) == Failure(NullCharacters)
  {
  }

  /** `validate_current_password`: the value is kept when it checks against the caller's stored password. */
  function ValidateCurrentPassword(v: Value, caller: User): (r: Result<Option<Value>, ErrorCode>)
    ensures r.Success? <==> v.Text? && CheckPassword(caller.password, v.s)
    ensures r.Failure? ==> r.error == InvalidPassword
    ensures r.Success? ==> r.value == Some(v)
  {
    if v.Text? && CheckPassword(caller.password, v.s) then Success(Some(v)) else Failure(InvalidPassword)
  }

  /**
   * One declared key checked against the payload: an absent key is an error only when it
   * is required and the update is not partial; a present one must pass `CheckValue`, must
   * not be taken by another row when the column is unique, and `current_password` must
   * check against the caller's stored password. The uniqueness validator is the first in
   * the field's list, so it sees the value as read and reports before the length and
   * U+0000 validators do.
   */
  function CheckKey(k: Key, spec: FieldSpec, data: map<Key, Value>, ctx: Context): (r: Result<Option<Value>, ErrorCode>)
    ensures r.Success? && r.value.Some? ==> k in data && Conforms(RulesOf(k), r.value.value)
    ensures r.Success? && r.value.Some? ==> CheckValue(RulesOf(k), data[k]) == Success(r.value.value)
    ensures r.Success? && r.value.Some? && r.value.value.Text? ==> Stripped(r.value.value.s)
    ensures r.Success? && r.value.None? ==> k !in data && (!spec.required || ctx.partial)
    ensures r.Success? && r.value.Some? && k.ModelKey? && Rules(k.field).unique ==> !Taken(ctx.users, k.field, r.value.value, ctx.instance)
    ensures r.Success? && r.value.Some? && k == CurrentPassword ==> r.value.value.Text? && CheckPassword(ctx.caller.password, r.value.value.s)
    ensures k in data && k.ModelKey? && Rules(k.field).unique && ReadValue(RulesOf(k), data[k]).Success?
            && Taken(ctx.users, k.field, ReadValue(RulesOf(k), data[k]).value, ctx.instance)
            ==> r == Failure(NotUnique)
  {
    if k !in data then
      if spec.required && !ctx.partial then Failure(Required) else Success(None)
    else match ReadValue(RulesOf(k), data[k])
      case Failure(e) => Failure(e)
      case Success(w) =>
        if k.ModelKey? && Rules(k.field).unique && Taken(ctx.users, k.field, w, ctx.instance) then Failure(NotUnique)
        else match CharValidators(RulesOf(k), w)
          case Failure(e) => Failure(e)
          case Success(v) =>
            if k == CurrentPassword then ValidateCurrentPassword(v, ctx.caller)
            else Success(Some(v))
  }

  /**
   * `PasswordSerializer.validate`: the strength validators run on the new password
   * first, and only then is the new password compared with the current one.
   */
  function ValidatePasswordChange(attrs: map<Key, Value>, ctx: Context): (r: Result<map<Key, Value>, ValidationError>)
    requires NewPassword in attrs ==> attrs[NewPassword].Text?
    ensures r.Success? ==> r.value == attrs
    ensures r.Success? <==>
      && NewPassword in attrs && CurrentPassword in attrs
      && ctx.strong(attrs[NewPassword].s, ctx.caller)
      && attrs[CurrentPassword] != attrs[NewPassword]
    ensures NewPassword in attrs && !ctx.strong(attrs[NewPassword].s, ctx.caller) ==> r == Failure(NonFieldErrors(TooWeak))
    ensures NewPassword in attrs && CurrentPassword in attrs && ctx.strong(attrs[NewPassword].s, ctx.caller)
            && attrs[CurrentPassword] == attrs[NewPassword]
            ==> r == Failure(Details(SameAsOld))
  {
    if NewPassword !in attrs then Failure(KeyMissing)
    else if !ctx.strong(attrs[NewPassword].s, ctx.caller) then Failure(NonFieldErrors(TooWeak))
    else if CurrentPassword !in attrs then Failure(KeyMissing)
    else if attrs[CurrentPassword] == attrs[NewPassword] then Failure(Details(SameAsOld))
    else Success(attrs)
  }

  /** The per-key checks of a projection's writable keys. */
  function KeyChecks(p: Projection, data: map<Key, Value>, ctx: Context): (checks: map<Key, Result<Option<Value>, ErrorCode>>)
    ensures checks.Keys == Writable(p)
  {
    map k | k in p && !p[k].readOnly :: CheckKey(k, p[k], data, ctx)
  }

  /** The errors among key checks. */
  function Errors(checks: map<Key, Result<Option<Value>, ErrorCode>>): (errors: map<Key, ErrorCode>)
    ensures errors.Keys <= checks.Keys
    ensures forall k | k in errors :: checks[k] == Failure(errors[k])
    ensures errors == map[] <==> forall k | k in checks :: checks[k].Success?
  {
    var errors := map k | k in checks && checks[k].Failure? :: checks[k].error;
    assert forall k | k in checks && checks[k].Failure? :: k in errors;
    errors
  }

  /** The values the key checks accepted (absent optional keys are left out). */
  function Accepted(checks: map<Key, Result<Option<Value>, ErrorCode>>): (attrs: map<Key, Value>)
    ensures forall k :: k in attrs <==> k in checks && checks[k].Success? && checks[k].value.Some?
    ensures forall k | k in attrs :: checks[k] == Success(Some(attrs[k]))
  {
    map k | k in checks && checks[k].Success? && checks[k].value.Some? :: checks[k].value.value
  }

  /**
   * `is_valid` against a projection; `passwordChange` says whether the serializer-wide
   * hook is `PasswordSerializer.validate`. On success the validated data holds only
   * writable keys the payload carried, each the value its field reads from the payload
   * and conforming to its declaration, every
   * required key when the update is not partial, no unique value held by another row,
   * and a current password that checks.
   */
  function ValidateWith(p: Projection, passwordChange: bool, data: map<Key, Value>, ctx: Context): (r: Result<map<Key, Value>, ValidationError>)
    ensures r.Success? ==> r.value.Keys <= Writable(p) && r.value.Keys <= data.Keys
    ensures r.Success? ==> forall k | k in r.value :: k in data && CheckValue(RulesOf(k), data[k]) == Success(r.value[k])
    ensures r.Success? ==> forall k | k in r.value :: Conforms(RulesOf(k), r.value[k])
    ensures r.Success? ==> forall k | k in r.value && r.value[k].Text? :: Stripped(r.value[k].s)
    ensures r.Success? && !ctx.partial ==> RequiredKeys(p) <= r.value.Keys
    ensures r.Success? ==> forall k | k in r.value && k.ModelKey? && Rules(k.field).unique :: !Taken(ctx.users, k.field, r.value[k], ctx.instance)
    ensures r.Success? && CurrentPassword in r.value ==> r.value[CurrentPassword].Text? && CheckPassword(ctx.caller.password, r.value[CurrentPassword].s)
  {
    var checks := KeyChecks(p, data, ctx);
    var errors := Errors(checks);
    if errors != map[] then
      Failure(FieldErrors(errors))
    else
      var attrs := Accepted(checks);
      assert forall k | k in RequiredKeys(p) && !ctx.partial :: k in attrs by {
        forall k | k in RequiredKeys(p) && !ctx.partial
          ensures k in attrs
        {
          assert k in checks && checks[k].Success?;
        }
      }
      if passwordChange then
        assert NewPassword in attrs ==> RulesOf(NewPassword).kind == TextKind;
        ValidatePasswordChange(attrs, ctx)
      else
        Success(attrs)
  }

  /** Validation in two steps: the key checks' errors if any, otherwise the hook on the accepted values. */
  lemma ValidateWithSteps(p: Projection, passwordChange: bool, data: map<Key, Value>, ctx: Context)
    ensures var checks := KeyChecks(p, data, ctx);
      ValidateWith(p, passwordChange, data, ctx) ==
        if Errors(checks) != map[] then Failure(FieldErrors(Errors(checks)))
        else if passwordChange then ValidatePasswordChange(Accepted(checks), ctx)
        else Success(Accepted(checks))
  {
  }

  /**
   * `is_valid` for one of the serializers: what it accepts are keys it declares writable,
   * each taken from the payload as its field reads it, and with every required key on a
   * full validation.
   */
  function Validate(kind: SerializerKind, data: map<Key, Value>, ctx: Context): (r: Result<map<Key, Value>, ValidationError>)
    ensures r.Success? ==> forall k | k in r.value ::
      k in data && k in Writable(ProjectionOf(kind)) && CheckValue(RulesOf(k), data[k]) == Success(r.value[k])
    ensures r.Success? && !ctx.partial ==> RequiredKeys(ProjectionOf(kind)) <= r.value.Keys
  {
    ValidateWith(ProjectionOf(kind), kind == SetPasswordSerializer, data, ctx)
  }

  /** `is_valid` for one of the serializers as the code declares them; as written, deletion accepts any payload whose `is_active`, if sent, reads as a boolean. */
  function ValidateAsWritten(kind: SerializerKind, data: map<Key, Value>, ctx: Context): (r: Result<map<Key, Value>, ValidationError>)
    ensures kind == DeleteSerializer ==> (r.Success? <==> ActiveFlagOk(data))
  {
    if kind == DeleteSerializer then
      DeleteIgnoresPasswordAsWritten(data, ctx);
      ValidateWith(DeleteProjectionAsWritten(), false, data, ctx)
    else
      ValidateWith(ProjectionOf(kind), kind == SetPasswordSerializer, data, ctx)
  }

  /**
   * The rendered form of a record through a serializer (`serializer.data`): every
   * readable model column the serializer declares, with the value stored in the record,
   * and nothing else.
   */
  function Render(kind: SerializerKind, u: User): (r: map<Key, Value>)
    ensures forall k | k in r :: k.ModelKey? && r[k] == Get(u, k.field)
    ensures forall f :: ModelKey(f) in r <==> ModelKey(f) in Readable(ProjectionOf(kind))
  {
    var p := ProjectionOf(kind);
    map k | k in Readable(p) && k.ModelKey? :: Get(u, k.field)
  }

  /** `ModelSerializer.update` on the columns in `fs`: each validated column is assigned in turn. */
  function ApplyFields(u: User, attrs: map<Key, Value>, fs: seq<Field>): User
    decreases |fs|
  {
    if fs == [] then u
    else
      var f := fs[0];
      var u' := if ModelKey(f) in attrs then Set(u, f, attrs[ModelKey(f)]) else u;
      ApplyFields(u', attrs, fs[1..])
  }

  /** A record with column `f` alone assigned from validated data, if the data carries it. */
  function Assign(u: User, attrs: map<Key, Value>, f: Field): User {
    if ModelKey(f) in attrs then Set(u, f, attrs[ModelKey(f)]) else u
  }

  /**
   * `ModelSerializer.update`: every validated column is assigned; other keys are ignored.
   * Columns are independent, so each one is taken from assigning that column alone
   * (`ApplyUpdateIsLoop` shows this is the column-by-column loop).
   */
  function ApplyUpdate(u: User, attrs: map<Key, Value>): (r: User)
    ensures ModelKey(Id) !in attrs ==> r.id == u.id
    ensures ModelKey(Email) !in attrs ==> r.email == u.email
    ensures ModelKey(Password) !in attrs ==> r.password == u.password
  {
    u.(id := Assign(u, attrs, Id).id,
       password := Assign(u, attrs, Password).password,
       lastLogin := Assign(u, attrs, LastLogin).lastLogin,
       isSuperuser := Assign(u, attrs, IsSuperuser).isSuperuser,
       username := Assign(u, attrs, Username).username,
       firstName := Assign(u, attrs, FirstName).firstName,
       lastName := Assign(u, attrs, LastName).lastName,
       email := Assign(u, attrs, Email).email,
       isStaff := Assign(u, attrs, IsStaff).isStaff,
       isActive := Assign(u, attrs, IsActive).isActive,
       dateJoined := Assign(u, attrs, DateJoined).dateJoined,
       name := Assign(u, attrs, Name).name,
       birthDate := Assign(u, attrs, BirthDate).birthDate,
       phone := Assign(u, attrs, Phone).phone,
       groups := Assign(u, attrs, Groups).groups,
       userPermissions := Assign(u, attrs, UserPermissions).userPermissions)
  }

  /** Each column of the update reads as the assignment of that column alone. */
  lemma ApplyUpdateReads(u: User, attrs: map<Key, Value>, g: Field)
    ensures Get(ApplyUpdate(u, attrs), g) == Get(Assign(u, attrs, g), g)
  {
  }

  /** The update is the column-by-column loop over all columns. */
  lemma ApplyUpdateIsLoop(u: User, attrs: map<Key, Value>)
    ensures ApplyUpdate(u, attrs) == ApplyFields(u, attrs, AllFields)
  {
    AllFieldsDistinct();
    forall g: Field
      ensures Get(ApplyUpdate(u, attrs), g) == Get(ApplyFields(u, attrs, AllFields), g)
    {
      AllFieldsComplete(g);
      ApplyFieldsGet(u, attrs, AllFields, g);
      ApplyUpdateReads(u, attrs, g);
    }
    GetDetermines(ApplyUpdate(u, attrs), ApplyFields(u, attrs, AllFields));
  }

  predicate Distinct(fs: seq<Field>) {
    forall i, j | 0 <= i < j < |fs| :: fs[i] != fs[j]
  }

  /** The position of each column in `AllFields`. */
  function FieldIndex(f: Field): nat {
    match f
    case Id => 0 case Password => 1 case LastLogin => 2 case IsSuperuser => 3
    case Username => 4 case FirstName => 5 case LastName => 6 case Email => 7
    case IsStaff => 8 case IsActive => 9 case DateJoined => 10 case Name => 11
    case BirthDate => 12 case Phone => 13 case Groups => 14 case UserPermissions => 15
  }

  lemma AllFieldsDistinct()
    ensures Distinct(AllFields)
  {
    assert forall i | 0 <= i < |AllFields| :: FieldIndex(AllFields[i]) == i;
  }

  /** Assigning a column from two records that agree on it gives the same column. */
  lemma SetAgrees(u1: User, u2: User, g: Field, v: Value)
    requires Get(u1, g) == Get(u2, g)
    ensures Get(Set(u1, g, v), g) == Get(Set(u2, g, v), g)
  {
  }

  /** After the update each column reads as assigned when validated data carries it, and is unchanged otherwise. */
  lemma {:induction false} ApplyFieldsGet(u: User, attrs: map<Key, Value>, fs: seq<Field>, g: Field)
    requires Distinct(fs)
    ensures Get(ApplyFields(u, attrs, fs), g) ==
      if g in fs && ModelKey(g) in attrs then Get(Set(u, g, attrs[ModelKey(g)]), g) else Get(u, g)
    decreases |fs|
  {
    if fs != [] {
      var f := fs[0];
      var u' := if ModelKey(f) in attrs then Set(u, f, attrs[ModelKey(f)]) else u;
      assert Distinct(fs[1..]);
      ApplyFieldsGet(u', attrs, fs[1..], g);
      if g == f {
        assert g !in fs[1..];
      } else {
        assert g in fs <==> g in fs[1..];
        if ModelKey(f) in attrs {
          SetThenGet(u, f, attrs[ModelKey(f)], g);
        }
        if g in fs[1..] && ModelKey(g) in attrs {
          SetAgrees(u', u, g, attrs[ModelKey(g)]);
        }
      }
    }
  }

  /** An update with admissible values keeps a record well formed. */
  lemma {:induction false} ApplyFieldsKeepsWellFormed(u: User, attrs: map<Key, Value>, fs: seq<Field>)
    requires WellFormed(u)
    requires forall k | k in attrs && k.ModelKey? :: Admissible(k.field, attrs[k])
    ensures WellFormed(ApplyFields(u, attrs, fs))
    decreases |fs|
  {
    if fs != [] {
      var f := fs[0];
      if ModelKey(f) in attrs {
        SetKeepsWellFormed(u, f, attrs[ModelKey(f)]);
      }
      var u' := if ModelKey(f) in attrs then Set(u, f, attrs[ModelKey(f)]) else u;
      ApplyFieldsKeepsWellFormed(u', attrs, fs[1..]);
    }
  }

  /**
   * The update framing: a column the validated data does not carry is unchanged, and a
   * carried admissible column reads back as validated.
   */
  lemma ApplyUpdateGet(u: User, attrs: map<Key, Value>, g: Field)
    ensures ModelKey(g) !in attrs ==> Get(ApplyUpdate(u, attrs), g) == Get(u, g)
    ensures ModelKey(g) in attrs && g != Password && Admissible(g, attrs[ModelKey(g)]) ==>
      Get(ApplyUpdate(u, attrs), g) == attrs[ModelKey(g)]
  {
    ApplyUpdateReads(u, attrs, g);
    if ModelKey(g) in attrs {
      SetThenGet(u, g, attrs[ModelKey(g)], g);
    }
  }


  // ---------------------------------------------------------------------------
  // What each serializer declares

  /** The admin list serializer renders exactly `id` and `email`. */
  lemma AdminListProjection()
    ensures Readable(ProjectionOf(AdminListSerializer)) == {ModelKey(Id), ModelKey(Email)}
    ensures Writable(ProjectionOf(AdminListSerializer)) == {ModelKey(Email)}
  {
    var p := ProjectionOf(AdminListSerializer);
    assert ModelKey(Id) in p && ModelKey(Email) in p;
  }

  /** The admin serializer declares every column, renders the password column, and requires `password`, `username` and `email`. */
  lemma AdminProjection()
    ensures forall f :: ModelKey(f) in ProjectionOf(AdminSerializer)
    ensures ModelKey(Password) in Readable(ProjectionOf(AdminSerializer))
    ensures RequiredKeys(ProjectionOf(AdminSerializer)) == {ModelKey(Password), ModelKey(Username), ModelKey(Email)}
  {
    var p := ProjectionOf(AdminSerializer);
    forall k: Key
      ensures k in p <==> k.ModelKey?
      ensures k in RequiredKeys(p) <==> k in {ModelKey(Password), ModelKey(Username), ModelKey(Email)}
    {
      ModelProjectionHas(AllModelFields, {}, {}, k);
      if k.ModelKey? {
        InAllModelFields(k.field);
      }
    }
  }

  /** The self-service serializer renders `email`, `username`, `name`, `phone`, `birth_date`, and accepts all of them but `email`. */
  lemma UserProjection()
    ensures Readable(ProjectionOf(UserSerializer)) ==
      {ModelKey(Email), ModelKey(Username), ModelKey(Name), ModelKey(Phone), ModelKey(BirthDate)}
    ensures Writable(ProjectionOf(UserSerializer)) ==
      {ModelKey(Username), ModelKey(Name), ModelKey(Phone), ModelKey(BirthDate)}
    ensures RequiredKeys(ProjectionOf(UserSerializer)) == {ModelKey(Username)}
  {
    UserSets(ProjectionOf(UserSerializer));
  }

  lemma UserSets(p: Projection)
    requires p == ModelProjection({Email, Username, Name, Phone, BirthDate}, {Email}, {})
    ensures Readable(p) == {ModelKey(Email), ModelKey(Username), ModelKey(Name), ModelKey(Phone), ModelKey(BirthDate)}
    ensures Writable(p) == {ModelKey(Username), ModelKey(Name), ModelKey(Phone), ModelKey(BirthDate)}
    ensures RequiredKeys(p) == {ModelKey(Username)}
  {
    assert ModelKey(Email) in p && ModelKey(Username) in p && ModelKey(Name) in p;
    assert ModelKey(Phone) in p && ModelKey(BirthDate) in p;
  }

  /** The registration serializer accepts `password` but never renders it; `email`, `username` and `password` are required. */
  lemma CreateProjection()
    ensures ModelKey(Password) in Writable(ProjectionOf(CreateSerializer))
    ensures ModelKey(Password) !in Readable(ProjectionOf(CreateSerializer))
    ensures Writable(ProjectionOf(CreateSerializer)) ==
      {ModelKey(Email), ModelKey(Username), ModelKey(Name), ModelKey(Phone), ModelKey(BirthDate), ModelKey(Password)}
    ensures RequiredKeys(ProjectionOf(CreateSerializer)) == {ModelKey(Email), ModelKey(Username), ModelKey(Password)}
  {
    var p := ProjectionOf(CreateSerializer);
    assert p == ModelProjection(CreateFields, {}, {Password});
    CreateWritable(p);
    CreateRequired(p);
    ModelProjectionHas(CreateFields, {}, {Password}, ModelKey(Password));
  }

  /** The columns the registration serializer lists. */
  const CreateFields: set<Field> := {Email, Username, Name, Phone, BirthDate, Password}

  lemma CreateWritable(p: Projection)
    requires p == ModelProjection(CreateFields, {}, {Password})
    ensures Writable(p) ==
      {ModelKey(Email), ModelKey(Username), ModelKey(Name), ModelKey(Phone), ModelKey(BirthDate), ModelKey(Password)}
  {
    var writable := {ModelKey(Email), ModelKey(Username), ModelKey(Name), ModelKey(Phone), ModelKey(BirthDate), ModelKey(Password)};
    forall k | k in Writable(p)
      ensures k in writable
    {
      ModelProjectionHas(CreateFields, {}, {Password}, k);
    }
    forall f | f in CreateFields
      ensures ModelKey(f) in Writable(p)
    {
      ModelProjectionHas(CreateFields, {}, {Password}, ModelKey(f));
    }
  }

  lemma CreateRequired(p: Projection)
    requires p == ModelProjection(CreateFields, {}, {Password})
    ensures RequiredKeys(p) == {ModelKey(Email), ModelKey(Username), ModelKey(Password)}
  {
    var required := {ModelKey(Email), ModelKey(Username), ModelKey(Password)};
    forall k | k in RequiredKeys(p)
      ensures k in required
    {
      ModelProjectionHas(CreateFields, {}, {Password}, k);
    }
    forall f | f in {Email, Username, Password}
      ensures ModelKey(f) in RequiredKeys(p)
    {
      ModelProjectionHas(CreateFields, {}, {Password}, ModelKey(f));
    }
  }



  /** The deletion serializer requires `current_password`; `password` is read-only, so only `is_active` is writable besides. */
  lemma DeleteProjection()
    ensures CurrentPassword in RequiredKeys(ProjectionOf(DeleteSerializer))
    ensures ModelKey(Password) in ProjectionOf(DeleteSerializer)
    ensures Writable(ProjectionOf(DeleteSerializer)) == {CurrentPassword, ModelKey(IsActive)}
  {
    var p := ProjectionOf(DeleteSerializer);
    assert ModelKey(IsActive) in p && ModelKey(Password) in p;
  }

  /** As written, the deletion serializer has no `current_password` at all. */
  lemma DeleteProjectionAsWrittenLacksPassword()
    ensures CurrentPassword !in DeleteProjectionAsWritten()
    ensures Writable(DeleteProjectionAsWritten()) == {ModelKey(IsActive)}
  {
    var p := DeleteProjectionAsWritten();
    assert ModelKey(IsActive) in p;
  }

  /** The password-change serializer requires both `current_password` and `new_password`. */
  lemma SetPasswordProjection()
    ensures Writable(ProjectionOf(SetPasswordSerializer)) == {CurrentPassword, NewPassword}
    ensures RequiredKeys(ProjectionOf(SetPasswordSerializer)) == {CurrentPassword, NewPassword}
  {
  }

  /** Only the admin and deletion serializers render the (encoded) password; no other renders it. */
  lemma RenderPassword(kind: SerializerKind, u: User)
    ensures ModelKey(Password) in Render(kind, u) <==> kind == AdminSerializer || kind == DeleteSerializer
    ensures ModelKey(Password) in Render(kind, u) ==> Render(kind, u)[ModelKey(Password)] == Encoded(u.password)
  {
    if kind == AdminSerializer {
      AdminProjection();
    }
    assert ModelKey(Password) in ProjectionOf(DeleteSerializer);
  }

  /** Rendering through the admin list serializer yields exactly the id and the email. */
  lemma RenderAdminList(u: User)
    ensures Render(AdminListSerializer, u) == map[ModelKey(Id) := Num(u.id), ModelKey(Email) := Text(u.email)]
  {
    AdminListProjection();
  }

  /** Rendering through the self-service serializer yields exactly the five profile columns. */
  lemma RenderUser(u: User)
    ensures Render(UserSerializer, u).Keys ==
      {ModelKey(Email), ModelKey(Username), ModelKey(Name), ModelKey(Phone), ModelKey(BirthDate)}
    ensures Render(UserSerializer, u)[ModelKey(Email)] == Text(u.email)
  {
    UserProjection();
    SameModelKeys(Render(UserSerializer, u), Readable(ProjectionOf(UserSerializer)));
  }

  /** Two collections of column keys that hold the same columns are the same. */
  lemma SameModelKeys(r: map<Key, Value>, s: set<Key>)
    requires forall k | k in r :: k.ModelKey?
    requires forall k | k in s :: k.ModelKey?
    requires forall f :: ModelKey(f) in r <==> ModelKey(f) in s
    ensures r.Keys == s
  {
    forall k | k in s ensures k in r {
      assert ModelKey(k.field) == k;
    }
  }

  // ---------------------------------------------------------------------------
  // Validation of the password fields

  /**
   * A plain required char field passes exactly when it carries a text (or an integer)
   * that is not blank once stripped and holds no U+0000, and `current_password` must
   * also check; a text holding U+0000 is refused before the password is looked at.
   */
  lemma CheckCharKey(k: Key, data: map<Key, Value>, ctx: Context)
    requires k == CurrentPassword || k == NewPassword
    requires !ctx.partial
    ensures var r := CheckKey(k, CharInput, data, ctx);
      && (r.Success? <==>
            TextInput(data, k).Some? && (k == CurrentPassword ==> CheckPassword(ctx.caller.password, TextInput(data, k).value)))
      && (r.Success? ==> r.value == Some(Text(TextInput(data, k).value)))
      && (r.Failure? && TextInput(data, k).Some? ==> r.error == InvalidPassword)
      && (NulInput(data, k) ==> r == Failure(NullCharacters))
  {
    if TextInput(data, k).Some? {
      CheckValueAcceptsChar(RulesOf(k), data[k]);
    }
  }

  /**
   * The password-change serializer: when both fields carry non-blank texts and the
   * current password checks, the outcome is the serializer-wide hook's on the stripped texts.
   */
  lemma SetPasswordReachesHook(data: map<Key, Value>, ctx: Context)
    requires !ctx.partial
    requires TextInput(data, CurrentPassword).Some? && TextInput(data, NewPassword).Some?
    requires CheckPassword(ctx.caller.password, TextInput(data, CurrentPassword).value)
    ensures Validate(SetPasswordSerializer, data, ctx) ==
      ValidatePasswordChange(map[CurrentPassword := Text(TextInput(data, CurrentPassword).value),
                                 NewPassword := Text(TextInput(data, NewPassword).value)], ctx)
  {
    var p := ProjectionOf(SetPasswordSerializer);
    var cp := Text(TextInput(data, CurrentPassword).value);
    var np := Text(TextInput(data, NewPassword).value);
    var checks := KeyChecks(p, data, ctx);
    assert Errors(checks) == map[] && Accepted(checks) == map[CurrentPassword := cp, NewPassword := np] by {
      SetPasswordChecks(data, ctx);
      var values := map[CurrentPassword := cp, NewPassword := np];
      assert checks.Keys == values.Keys;
      AcceptedAll(checks, values);
    }
    ValidateWithSteps(p, true, data, ctx);
  }

  /** The key checks of the password-change serializer, when both fields pass. */
  lemma SetPasswordChecks(data: map<Key, Value>, ctx: Context)
    requires !ctx.partial
    requires TextInput(data, CurrentPassword).Some? && TextInput(data, NewPassword).Some?
    requires CheckPassword(ctx.caller.password, TextInput(data, CurrentPassword).value)
    ensures var checks := KeyChecks(ProjectionOf(SetPasswordSerializer), data, ctx);
      && checks.Keys == {CurrentPassword, NewPassword}
      && checks[CurrentPassword] == Success(Some(Text(TextInput(data, CurrentPassword).value)))
      && checks[NewPassword] == Success(Some(Text(TextInput(data, NewPassword).value)))
  {
    PairChecks(ProjectionOf(SetPasswordSerializer), data, ctx);
  }

  lemma PairChecks(p: Projection, data: map<Key, Value>, ctx: Context)
    requires p == map[CurrentPassword := CharInput, NewPassword := CharInput]
    requires !ctx.partial
    requires TextInput(data, CurrentPassword).Some? && TextInput(data, NewPassword).Some?
    requires CheckPassword(ctx.caller.password, TextInput(data, CurrentPassword).value)
    ensures var checks := KeyChecks(p, data, ctx);
      && checks.Keys == {CurrentPassword, NewPassword}
      && checks[CurrentPassword] == Success(Some(Text(TextInput(data, CurrentPassword).value)))
      && checks[NewPassword] == Success(Some(Text(TextInput(data, NewPassword).value)))
  {
    assert Writable(p) == {CurrentPassword, NewPassword};
    PasswordKeyCheck(p, CurrentPassword, data, ctx);
    PasswordKeyCheck(p, NewPassword, data, ctx);
  }

  /** A password text that passes its own check is accepted stripped. */
  lemma PasswordKeyCheck(p: Projection, k: Key, data: map<Key, Value>, ctx: Context)
    requires k == CurrentPassword || k == NewPassword
    requires k in p && p[k] == CharInput
    requires !ctx.partial && TextInput(data, k).Some?
    requires k == CurrentPassword ==> CheckPassword(ctx.caller.password, TextInput(data, k).value)
    ensures k in KeyChecks(p, data, ctx)
    ensures KeyChecks(p, data, ctx)[k] == Success(Some(Text(TextInput(data, k).value)))
  {
    CheckCharKey(k, data, ctx);
  }

  /** Key checks that all accepted a value: no errors, and the accepted values are those values. */
  lemma AcceptedAll(checks: map<Key, Result<Option<Value>, ErrorCode>>, values: map<Key, Value>)
    requires checks.Keys == values.Keys
    requires forall k | k in checks :: checks[k] == Success(Some(values[k]))
    ensures Errors(checks) == map[]
    ensures Accepted(checks) == values
  {
  }

  /** A payload whose key check fails is rejected with that key's error. */
  lemma KeyErrorRejects(kind: SerializerKind, data: map<Key, Value>, ctx: Context, k: Key)
    requires k in Writable(ProjectionOf(kind))
    requires CheckKey(k, ProjectionOf(kind)[k], data, ctx).Failure?
    ensures Validate(kind, data, ctx).Failure?
    ensures Validate(kind, data, ctx).error.FieldErrors?
    ensures k in Validate(kind, data, ctx).error.fields
    ensures Validate(kind, data, ctx).error.fields[k] == CheckKey(k, ProjectionOf(kind)[k], data, ctx).error
  {
    var p := ProjectionOf(kind);
    var checks := KeyChecks(p, data, ctx);
    ValidateWithSteps(p, kind == SetPasswordSerializer, data, ctx);
    assert k in Errors(checks);
  }

  /**
   * `SetPasswordSerializer.is_valid` succeeds exactly when both fields carry non-blank
   * texts, the current one checks against the stored password, the new one passes the
   * strength validators, and the two differ; the validated data is then the two stripped texts.
   */
  lemma SetPasswordValidation(data: map<Key, Value>, ctx: Context)
    requires !ctx.partial
    ensures var r := Validate(SetPasswordSerializer, data, ctx);
      r.Success? <==>
        && TextInput(data, CurrentPassword).Some? && TextInput(data, NewPassword).Some?
        && CheckPassword(ctx.caller.password, TextInput(data, CurrentPassword).value)
        && ctx.strong(TextInput(data, NewPassword).value, ctx.caller)
        && TextInput(data, CurrentPassword) != TextInput(data, NewPassword)
    ensures var r := Validate(SetPasswordSerializer, data, ctx);
      r.Success? ==> r.value == map[CurrentPassword := Text(TextInput(data, CurrentPassword).value),
                                    NewPassword := Text(TextInput(data, NewPassword).value)]
  {
    var cp := TextInput(data, CurrentPassword);
    var np := TextInput(data, NewPassword);
    SetPasswordProjection();
    CheckCharKey(CurrentPassword, data, ctx);
    CheckCharKey(NewPassword, data, ctx);
    if cp.Some? && np.Some? && CheckPassword(ctx.caller.password, cp.value) {
      SetPasswordReachesHook(data, ctx);
    } else if cp.None? || !CheckPassword(ctx.caller.password, cp.value) {
      KeyErrorRejects(SetPasswordSerializer, data, ctx, CurrentPassword);
    } else {
      KeyErrorRejects(SetPasswordSerializer, data, ctx, NewPassword);
    }
  }

  /** `validate_current_password`: a non-blank current password that does not check is rejected with `invalid_password`. */
  lemma WrongCurrentPasswordRejected(kind: SerializerKind, data: map<Key, Value>, ctx: Context)
    requires kind == SetPasswordSerializer || kind == DeleteSerializer
    requires TextInput(data, CurrentPassword).Some?
    requires !CheckPassword(ctx.caller.password, TextInput(data, CurrentPassword).value)
    ensures Validate(kind, data, ctx).Failure?
    ensures Validate(kind, data, ctx).error.FieldErrors?
    ensures CurrentPassword in Validate(kind, data, ctx).error.fields
    ensures Validate(kind, data, ctx).error.fields[CurrentPassword] == InvalidPassword
  {
    CurrentPasswordInput(kind);
    CurrentPasswordMismatch(data, ctx);
    KeyErrorRejects(kind, data, ctx, CurrentPassword);
  }

  /** Both password-confirming serializers take `current_password` as a required, writable text. */
  lemma CurrentPasswordInput(kind: SerializerKind)
    requires kind == SetPasswordSerializer || kind == DeleteSerializer
    ensures CurrentPassword in Writable(ProjectionOf(kind))
    ensures ProjectionOf(kind)[CurrentPassword] == CharInput
  {
    assert ProjectionOf(kind)[CurrentPassword] == CharInput;
  }

  /** The `current_password` key check on a non-blank text that does not check. */
  lemma CurrentPasswordMismatch(data: map<Key, Value>, ctx: Context)
    requires TextInput(data, CurrentPassword).Some?
    requires !CheckPassword(ctx.caller.password, TextInput(data, CurrentPassword).value)
    ensures CheckKey(CurrentPassword, CharInput, data, ctx) == Failure(InvalidPassword)
  {
    CheckValueAcceptsChar(RulesOf(CurrentPassword), data[CurrentPassword]);
  }

  /**
   * A password key whose text holds U+0000 is refused with a field error on that key;
   * neither `validate_current_password` nor the serializer-wide hook runs.
   */
  lemma NullCharactersRejected(kind: SerializerKind, data: map<Key, Value>, ctx: Context, k: Key)
    requires (k == CurrentPassword && (kind == SetPasswordSerializer || kind == DeleteSerializer))
          || (k == NewPassword && kind == SetPasswordSerializer)
    requires NulInput(data, k)
    ensures Validate(kind, data, ctx).Failure?
    ensures Validate(kind, data, ctx).error.FieldErrors?
    ensures k in Validate(kind, data, ctx).error.fields
    ensures Validate(kind, data, ctx).error.fields[k] == NullCharacters
  {
    assert k in Writable(ProjectionOf(kind)) && ProjectionOf(kind)[k] == CharInput by {
      if k == CurrentPassword {
        CurrentPasswordInput(kind);
      } else {
        SetPasswordProjection();
      }
    }
    CheckValueRefusesNul(RulesOf(k), data[k]);
    KeyErrorRejects(kind, data, ctx, k);
  }

  /**
   * The strength check runs before the comparison with the current password: a weak new
   * password is reported as such even when it equals the current one.
   */
  lemma WeakPasswordRejectedFirst(data: map<Key, Value>, ctx: Context)
    requires !ctx.partial
    requires TextInput(data, CurrentPassword).Some? && TextInput(data, NewPassword).Some?
    requires CheckPassword(ctx.caller.password, TextInput(data, CurrentPassword).value)
    requires !ctx.strong(TextInput(data, NewPassword).value, ctx.caller)
    ensures Validate(SetPasswordSerializer, data, ctx) == Failure(NonFieldErrors(TooWeak))
  {
    SetPasswordReachesHook(data, ctx);
  }

  /** A strong new password equal to the current one is rejected as "the same as old password". */
  lemma SameAsOldRejected(data: map<Key, Value>, ctx: Context)
    requires !ctx.partial
    requires TextInput(data, CurrentPassword).Some?
    requires TextInput(data, NewPassword) == TextInput(data, CurrentPassword)
    requires CheckPassword(ctx.caller.password, TextInput(data, CurrentPassword).value)
    requires ctx.strong(TextInput(data, NewPassword).value, ctx.caller)
    ensures Validate(SetPasswordSerializer, data, ctx) == Failure(Details(SameAsOld))
  {
    SetPasswordReachesHook(data, ctx);
  }

  // ---------------------------------------------------------------------------
  // Validation of the deletion confirmation

  /** A payload value `is_active` admits: absent, or something a boolean field reads as a boolean. */
  predicate ActiveFlagOk(data: map<Key, Value>) {
    ModelKey(IsActive) in data ==> BoolOf(data[ModelKey(IsActive)]).Some?
  }

  /** The deletion serializer succeeds exactly when the current password checks (and `is_active`, if sent, reads as a boolean). */
  lemma DeleteValidation(data: map<Key, Value>, ctx: Context)
    requires !ctx.partial
    ensures Validate(DeleteSerializer, data, ctx).Success? <==>
      && TextInput(data, CurrentPassword).Some?
      && CheckPassword(ctx.caller.password, TextInput(data, CurrentPassword).value)
      && ActiveFlagOk(data)
  {
    var p := ProjectionOf(DeleteSerializer);
    DeleteProjection();
    CheckCharKey(CurrentPassword, data, ctx);
    var checks := KeyChecks(p, data, ctx);
    assert checks.Keys == {CurrentPassword, ModelKey(IsActive)};
    var active := checks[ModelKey(IsActive)];
    assert active.Success? <==> ActiveFlagOk(data);
    if !checks[CurrentPassword].Success? {
      KeyErrorRejects(DeleteSerializer, data, ctx, CurrentPassword);
    } else if !active.Success? {
      KeyErrorRejects(DeleteSerializer, data, ctx, ModelKey(IsActive));
    } else {
      ValidateWithSteps(p, false, data, ctx);
      assert Errors(checks) == map[];
    }
  }

  /** As written, deletion validation never looks at a password: it succeeds exactly when `is_active`, if sent, reads as a boolean. */
  lemma DeleteIgnoresPasswordAsWritten(data: map<Key, Value>, ctx: Context)
    ensures ValidateWith(DeleteProjectionAsWritten(), false, data, ctx).Success? <==> ActiveFlagOk(data)
  {
    var p := DeleteProjectionAsWritten();
    DeleteProjectionAsWrittenLacksPassword();
    var checks := KeyChecks(p, data, ctx);
    assert checks.Keys == {ModelKey(IsActive)};
    ValidateWithSteps(p, false, data, ctx);
    assert Errors(checks) == map[] <==> checks[ModelKey(IsActive)].Success?;
  }

  // ---------------------------------------------------------------------------
  // Model serializers

  /**
   * A registration or admin payload whose email another row already holds is rejected
   * with a uniqueness error.
   */
  lemma TakenEmailRejected(kind: SerializerKind, data: map<Key, Value>, ctx: Context, i: UserId)
    requires kind == CreateSerializer || kind == AdminSerializer
    requires i in ctx.users && Some(i) != ctx.instance && WellFormed(ctx.users[i])
    requires ModelKey(Email) in data && data[ModelKey(Email)].Text?
    requires Trim(data[ModelKey(Email)].s) == ctx.users[i].email
    ensures Validate(kind, data, ctx).Failure?
    ensures Validate(kind, data, ctx).error.FieldErrors?
    ensures ModelKey(Email) in Validate(kind, data, ctx).error.fields
    ensures Validate(kind, data, ctx).error.fields[ModelKey(Email)] == NotUnique
  {
    var k := ModelKey(Email);
    if kind == AdminSerializer {
      AdminProjection();
    } else {
      CreateProjection();
    }
    assert k in Writable(ProjectionOf(kind));
    TakenEmailCheck(ProjectionOf(kind)[k], data, ctx, i);
    KeyErrorRejects(kind, data, ctx, k);
  }

  /**
   * The `email` key check on an email another row holds: the uniqueness validator comes
   * first, so the answer is a uniqueness error whatever else is wrong with the text.
   */
  lemma TakenEmailCheck(spec: FieldSpec, data: map<Key, Value>, ctx: Context, i: UserId)
    requires i in ctx.users && Some(i) != ctx.instance && WellFormed(ctx.users[i])
    requires ModelKey(Email) in data && data[ModelKey(Email)].Text?
    requires Trim(data[ModelKey(Email)].s) == ctx.users[i].email
    ensures CheckKey(ModelKey(Email), spec, data, ctx) == Failure(NotUnique)
  {
    assert CharText(data[ModelKey(Email)]) == Some(ctx.users[i].email);
    assert ReadValue(Rules(Email), data[ModelKey(Email)]) == Success(Text(ctx.users[i].email));
    assert Get(ctx.users[i], Email) == Text(ctx.users[i].email);
  }

  /**
   * An update through the self-service serializer changes at most `username`, `name`,
   * `phone` and `birth_date`; in particular the email never changes.
   */
  lemma UserUpdateFraming(u: User, data: map<Key, Value>, ctx: Context, attrs: map<Key, Value>)
    requires Validate(UserSerializer, data, ctx) == Success(attrs)
    ensures forall f | f !in SelfEditable :: Get(ApplyUpdate(u, attrs), f) == Get(u, f)
  {
    UserAttrs(data, ctx, attrs);
    UpdateOutside(u, attrs, SelfEditable);
  }

  /** The columns the self-service serializer writes. */
  const SelfEditable: set<Field> := {Username, Name, Phone, BirthDate}

  /** The self-service serializer validates only model columns it may write. */
  lemma UserAttrs(data: map<Key, Value>, ctx: Context, attrs: map<Key, Value>)
    requires Validate(UserSerializer, data, ctx) == Success(attrs)
    ensures forall k | k in attrs :: k.ModelKey? && k.field in SelfEditable
  {
    assert attrs.Keys <= Writable(ProjectionOf(UserSerializer));
    UserProjection();
  }

  /** An update whose validated data carries only the columns in `touched` leaves every other column alone. */
  lemma UpdateOutside(u: User, attrs: map<Key, Value>, touched: set<Field>)
    requires forall k | k in attrs :: k.ModelKey? && k.field in touched
    ensures forall f | f !in touched :: Get(ApplyUpdate(u, attrs), f) == Get(u, f)
  {
    forall f | f !in touched
      ensures Get(ApplyUpdate(u, attrs), f) == Get(u, f)
    {
      ApplyUpdateGet(u, attrs, f);
    }
  }

  /** Validated model data keeps a record well formed when written onto it. */
  lemma ValidatedUpdateKeepsWellFormed(kind: SerializerKind, u: User, data: map<Key, Value>, ctx: Context)
    requires WellFormed(u)
    requires Validate(kind, data, ctx).Success?
    ensures WellFormed(ApplyUpdate(u, Validate(kind, data, ctx).value))
  {
    ApplyFieldsKeepsWellFormed(u, Validate(kind, data, ctx).value, AllFields);
    ApplyUpdateIsLoop(u, Validate(kind, data, ctx).value);
  }

  /** A model column a serializer accepts from a payload is an editable column. */
  lemma WritableColumnEditable(kind: SerializerKind, f: Field)
    requires ModelKey(f) in Writable(ProjectionOf(kind))
    ensures Rules(f).editable
  {
    var k := ModelKey(f);
    match kind
    case AdminListSerializer => ModelProjectionHas({Id, Email}, {}, {}, k);
    case AdminSerializer => ModelProjectionHas(AllModelFields, {}, {}, k);
    case UserSerializer => ModelProjectionHas({Email, Username, Name, Phone, BirthDate}, {Email}, {}, k);
    case CreateSerializer => ModelProjectionHas(CreateFields, {}, {Password}, k);
    case DeleteSerializer => ModelProjectionHas({Password, IsActive}, {Password}, {}, k);
    case SetPasswordSerializer =>
  }

  /** The admin serializer declares model columns only, so its validated data never has a `new_password`. */
  lemma AdminHasNoNewPassword(data: map<Key, Value>, ctx: Context)
    requires Validate(AdminSerializer, data, ctx).Success?
    ensures NewPassword !in Validate(AdminSerializer, data, ctx).value
  {
    ModelProjectionHas(AllModelFields, {}, {}, NewPassword);
  }

  /**
   * Writing validated data onto row `id`, validated against that very row, keeps the
   * users table valid: the id is never writable, the row stays well formed, and an
   * accepted email is held by no other row.
   */
  lemma ValidatedUpdateKeepsValid(kind: SerializerKind, users: map<UserId, User>, id: UserId, data: map<Key, Value>, ctx: Context)
    requires ValidUsers(users) && id in users
    requires ctx.users == users && ctx.instance == Some(id)
    requires Validate(kind, data, ctx).Success?
    ensures ValidUsers(users[id := ApplyUpdate(users[id], Validate(kind, data, ctx).value)])
  {
    assert ModelKey(Id) !in Writable(ProjectionOf(kind)) by {
      if ModelKey(Id) in Writable(ProjectionOf(kind)) {
        WritableColumnEditable(kind, Id);
      }
    }
    ValidatedWithKeepsValid(ProjectionOf(kind), kind == SetPasswordSerializer, users, id, data, ctx);
  }

  /** `ValidatedUpdateKeepsValid` for any projection that does not accept the id. */
  lemma ValidatedWithKeepsValid(p: Projection, passwordChange: bool, users: map<UserId, User>, id: UserId, data: map<Key, Value>, ctx: Context)
    requires ValidUsers(users) && id in users
    requires ctx.users == users && ctx.instance == Some(id)
    requires ModelKey(Id) !in Writable(p)
    requires ValidateWith(p, passwordChange, data, ctx).Success?
    ensures ValidUsers(users[id := ApplyUpdate(users[id], ValidateWith(p, passwordChange, data, ctx).value)])
  {
    var attrs := ValidateWith(p, passwordChange, data, ctx).value;
    assert forall k | k in attrs && k.ModelKey? :: Admissible(k.field, attrs[k]);
    assert ModelKey(Email) in attrs ==> !Taken(users, Email, attrs[ModelKey(Email)], Some(id));
    UpdateKeepsValid(users, id, attrs);
  }


  /** Writing data onto a row keeps the table valid when it leaves the id alone, is admissible, and brings no email another row holds. */
  lemma UpdateKeepsValid(users: map<UserId, User>, id: UserId, attrs: map<Key, Value>)
    requires ValidUsers(users) && id in users
    requires ModelKey(Id) !in attrs
    requires forall k | k in attrs && k.ModelKey? :: Admissible(k.field, attrs[k])
    requires ModelKey(Email) in attrs ==> !Taken(users, Email, attrs[ModelKey(Email)], Some(id))
    ensures ValidUsers(users[id := ApplyUpdate(users[id], attrs)])
  {
    var u := users[id];
    var v := ApplyUpdate(u, attrs);
    assert WellFormed(v) by {
      ApplyFieldsKeepsWellFormed(u, attrs, AllFields);
      ApplyUpdateIsLoop(u, attrs);
    }
    assert v.id == id;
    assert !Taken(users, Email, Text(v.email), Some(id)) by {
      if ModelKey(Email) in attrs {
        assert attrs[ModelKey(Email)] == Text(v.email);
      } else {
        OwnEmailFree(users, id);
      }
    }
    ReplaceKeepsValid(users, id, v);
  }

}

=== FILE: strip.dfy ===
/**
 * Whitespace trimming as Python's `str.strip()` performs it. Every character field of a
 * REST serializer strips its input before any other check, so the password that is
 * compared and stored is the stripped one.
 */
module Strip {

  /** Python's `str.isspace()` for one character. */
  predicate IsSpace(c: char) {
    || c == ' '
    || ('\t' <= c <= '\r')
    || ('\U{1C}' <= c <= '\U{1F}')
    || c == '\U{85}'
    || c == '\U{A0}'
    || c == '\U{1680}'
    || ('\U{2000}' <= c <= '\U{200A}')
    || c == '\U{2028}'
    || c == '\U{2029}'
    || c == '\U{202F}'
    || c == '\U{205F}'
    || c == '\U{3000}'
  }

  /** A string with no leading and no trailing whitespace. */
  predicate Stripped(s: string) {
    s == [] || (!IsSpace(s[0]) && !IsSpace(s[|s| - 1]))
  }

  /** All of a string is whitespace. */
  predicate Blank(s: string) {
    forall i | 0 <= i < |s| :: IsSpace(s[i])
  }

  /** The length of the whitespace run the text starts with: all of it is whitespace, and the character after it is not. */
  function LeadingSpaces(s: string): (n: nat)
    ensures n <= |s|
    ensures forall k | 0 <= k < n :: IsSpace(s[k])
    ensures n < |s| ==> !IsSpace(s[n])
  {
    if s != [] && IsSpace(s[0]) then
      var n := 1 + LeadingSpaces(s[1..]);
      assert forall k | 1 <= k < n :: s[k] == s[1..][k - 1];
      n
    else 0
  }

  /** Where the whitespace run the text ends with begins: all of it is whitespace, and the character before it is not. */
  function TrailingStart(s: string): (n: nat)
    ensures n <= |s|
    ensures forall k | n <= k < |s| :: IsSpace(s[k])
    ensures 0 < n ==> !IsSpace(s[n - 1])
  {
    if s != [] && IsSpace(s[|s| - 1]) then
      var n := TrailingStart(s[..|s| - 1]);
      assert forall k | n <= k < |s| - 1 :: s[k] == s[..|s| - 1][k];
      n
    else |s|
  }

  /**
   * Python's `s.strip()`: the slice of the input that starts after its leading
   * whitespace, with every character outside the slice whitespace, and that starts and
   * ends with a non-space (or is empty). `StripUnique` shows no other slice does that.
   */
  function Trim(s: string): (r: string)
    ensures Stripped(r)
    ensures LeadingSpaces(s) + |r| <= |s| && r == s[LeadingSpaces(s)..LeadingSpaces(s) + |r|]
    ensures forall k | 0 <= k < |s| && !(LeadingSpaces(s) <= k < LeadingSpaces(s) + |r|) :: IsSpace(s[k])
  {
    var i := LeadingSpaces(s);
    if i == |s| then []
    else
      var j := TrailingStart(s);
      assert i < j;   // s[i] is not whitespace, and everything from j on is
      s[i..j]
  }

  /**
   * Stripping is the only cut that leaves no whitespace at either end: if everything
   * outside `s[i..j]` is whitespace and `s[i..j]` is stripped, it is what `Trim` keeps.
   */
  lemma StripUnique(s: string, i: nat, j: nat)
    requires i <= j <= |s|
    requires forall k | 0 <= k < |s| && !(i <= k < j) :: IsSpace(s[k])
    requires Stripped(s[i..j])
    ensures s[i..j] == Trim(s)
  {
    var n := LeadingSpaces(s);
    var t := Trim(s);
    if i == j {
      assert Blank(s);
      TrimEmptyIffBlank(s);
    } else {
      assert !IsSpace(s[i]) && !IsSpace(s[j - 1]) by {
        assert s[i] == s[i..j][0] && s[j - 1] == s[i..j][j - 1 - i];
      }
      assert n == i;
      assert t != [] by {
        assert !IsSpace(s[i]);
      }
      assert !IsSpace(s[n + |t| - 1]) by {
        assert s[n + |t| - 1] == t[|t| - 1];
      }
      assert n + |t| == j;
    }
  }

  /** Stripping yields the empty string exactly when the input is all whitespace. */
  lemma TrimEmptyIffBlank(s: string)
    ensures Trim(s) == [] <==> Blank(s)
  {
  }

  /** A string that is already stripped is left alone. */
  lemma TrimKeepsStripped(s: string)
    requires Stripped(s)
    ensures Trim(s) == s
  {
    if s != [] {
      assert LeadingSpaces(s) == 0;
      assert TrailingStart(s) == |s|;
    }
  }

  /** Stripping twice is stripping once. */
  lemma TrimIdempotent(s: string)
    ensures Trim(Trim(s)) == Trim(s)
  {
    TrimKeepsStripped(Trim(s));
  }
}

=== FILE: utils.dfy ===
/**
 * Token login and logout over an abstract credential store: a table of authentication
 * tokens, at most one per user (the token's user is a one-to-one key), and the current
 * request's session. `CREATE_SESSION_ON_LOGIN` is passed in as `createSession`.
 */
module Tokens {
  import opened Wrappers
  import opened Models

  /** The token table and the session attached to the current request. */
  datatype Credentials = Credentials(tokens: map<UserId, string>, session: Option<UserId>)

  /** No two users hold the same token key (the key is the table's primary key). */
  predicate KeysUnique(tokens: map<UserId, string>) {
    forall a, b | a in tokens && b in tokens && tokens[a] == tokens[b] :: a == b
  }

  /** Inserting a freshly generated key that is already in use violates the primary key. */
  datatype TokenError = KeyInUse

  /** The result of a token login: the new credential store and the token handed out. */
  datatype Issued = Issued(creds: Credentials, key: string)

  /**
   * `token_login`: get or create the user's token, then log the session in when sessions
   * are enabled. `freshKey` stands for the randomly generated key a new token receives.
   */
  function TokenLogin(c: Credentials, user: UserId, createSession: bool, freshKey: string): (r: Result<Issued, TokenError>)
    ensures user in c.tokens ==> r.Success? && r.value.key == c.tokens[user]
    ensures user !in c.tokens ==> (r.Success? <==> freshKey !in c.tokens.Values)
    ensures user !in c.tokens && r.Success? ==> r.value.key == freshKey
    ensures r.Success? ==> user in r.value.creds.tokens && r.value.creds.tokens[user] == r.value.key
    ensures r.Success? ==> r.value.creds.tokens.Keys == c.tokens.Keys + {user}
    ensures r.Success? ==> forall other | other in c.tokens && other != user :: r.value.creds.tokens[other] == c.tokens[other]
    ensures r.Success? && createSession ==> r.value.creds.session == Some(user)
    ensures r.Success? && !createSession ==> r.value.creds.session == c.session
  {
    var existing := user in c.tokens;
    if !existing && freshKey in c.tokens.Values then
      Failure(KeyInUse)
    else
      var key := if existing then c.tokens[user] else freshKey;
      var session := if createSession then Some(user) else c.session;
      Success(Issued(Credentials(c.tokens[user := key], session), key))
  }

  /**
   * `token_logout`: delete the requesting user's token, then log the session out when
   * sessions are enabled.
   */
  function TokenLogout(c: Credentials, user: UserId, createSession: bool): (r: Credentials)
    ensures user !in r.tokens
    ensures forall other | other != user :: (other in r.tokens <==> other in c.tokens)
    ensures forall other | other in r.tokens :: r.tokens[other] == c.tokens[other]
    ensures createSession ==> r.session.None?
    ensures !createSession ==> r.session == c.session
  {
    Credentials(c.tokens - {user}, if createSession then None else c.session)
  }

  /** The user a presented token key belongs to (what token authentication looks up). */
  function TokenOwner(tokens: map<UserId, string>, key: string): (r: Option<UserId>)
    requires KeysUnique(tokens)
    ensures r.Some? <==> key in tokens.Values
    ensures r.Some? ==> r.value in tokens && tokens[r.value] == key
  {
    if key in tokens.Values then
      var u :| u in tokens && tokens[u] == key;
      Some(u)
    else
      None
  }

  /** Logging in twice hands out the same token and leaves the store as the first call did. */
  lemma TokenLoginIdempotent(c: Credentials, user: UserId, createSession: bool, k1: string, k2: string)
    requires TokenLogin(c, user, createSession, k1).Success?
    ensures var first := TokenLogin(c, user, createSession, k1).value;
      TokenLogin(first.creds, user, createSession, k2) == Success(first)
  {
    var first := TokenLogin(c, user, createSession, k1).value;
    assert first.creds.tokens[user := first.key] == first.creds.tokens;
  }

  /** Token login keeps keys unique. */
  lemma TokenLoginKeepsKeysUnique(c: Credentials, user: UserId, createSession: bool, freshKey: string)
    requires KeysUnique(c.tokens)
    requires TokenLogin(c, user, createSession, freshKey).Success?
    ensures KeysUnique(TokenLogin(c, user, createSession, freshKey).value.creds.tokens)
  {
  }

  /** Token logout keeps keys unique, and every key left was already there under the same user. */
  lemma TokenLogoutKeepsKeysUnique(c: Credentials, user: UserId, createSession: bool)
    requires KeysUnique(c.tokens)
    ensures KeysUnique(TokenLogout(c, user, createSession).tokens)
    ensures TokenLogout(c, user, createSession).tokens.Keys <= c.tokens.Keys
  {
  }

  /** After a logout, the key the user held authenticates nobody. */
  lemma TokenLogoutRevokesKey(c: Credentials, user: UserId, createSession: bool)
    requires KeysUnique(c.tokens) && user in c.tokens
    ensures KeysUnique(TokenLogout(c, user, createSession).tokens)
    ensures TokenOwner(TokenLogout(c, user, createSession).tokens, c.tokens[user]).None?
  {
  }

  /** Logging out and then in again leaves the user exactly one token: the freshly generated one. */
  lemma LogoutThenLogin(c: Credentials, user: UserId, createSession: bool, freshKey: string)
    requires freshKey !in c.tokens.Values
    ensures var out := TokenLogout(c, user, createSession);
      && TokenLogin(out, user, createSession, freshKey).Success?
      && TokenLogin(out, user, createSession, freshKey).value.key == freshKey
      && TokenLogin(out, user, createSession, freshKey).value.creds.tokens[user] == freshKey
  {
    var out := TokenLogout(c, user, createSession);
    assert out.tokens.Values <= c.tokens.Values by {
      forall k | k in out.tokens.Values
        ensures k in c.tokens.Values
      {
        var o :| o in out.tokens && out.tokens[o] == k;
        assert c.tokens[o] == k;
      }
    }
  }
}

=== FILE: views.dfy ===
/**
 * The account endpoints of the user view set: `me` (read, update and deactivate one's
 * own account) and `set_password`, over an abstract state made of the users table and
 * the credential store. Each request authenticates, passes the action's permission,
 * validates its payload, and only then changes the state: a save first, the token
 * revocation after it.
 *
 * The handlers take the requesting user as the record they act on (`get_instance`).
 * `MeAsWritten` and `SetPasswordAsWritten` keep the code as it stands, where the record is
 * looked up through the primary key the route does not carry.
 */
module Views {
  import opened Wrappers
  import opened Strip
  import opened Models
  import opened Tokens
  import opened Serializers
  import opened Dispatch

  /** The users table and the credential store. */
  datatype State = State(users: map<UserId, User>, creds: Credentials)

  /**
   * The state invariant: a valid users table (ids match keys, emails unique, rows well
   * formed), unique token keys, and tokens and sessions only for existing users.
   */
  predicate Valid(st: State) {
    && ValidUsers(st.users)
    && KeysUnique(st.creds.tokens)
    && st.creds.tokens.Keys <= st.users.Keys
    && (st.creds.session.Some? ==> st.creds.session.value in st.users)
  }

  /** `CREATE_SESSION_ON_LOGIN` and the password-strength validators. */
  datatype Config = Config(createSession: bool, strong: (string, User) -> bool)

  /** What a request does to storage, in order. */
  datatype Effect =
    | Saved(user: UserId, fields: set<Field>)   // `save()`, or `save(update_fields=...)`
    | TokensDeleted(user: UserId)
    | SessionLoggedOut

  datatype Response =
    | NoContent                       // 204
    | Body(data: map<Key, Value>)     // 200 with the rendered record
    | BadRequest(error: ValidationError)
    | NotAuthenticated                // 401 when the first authentication class is token authentication, 403 otherwise
    | Forbidden                       // 403
    | MethodNotAllowed                // 405
    | ServerError                     // 500

  datatype Outcome = Outcome(state: State, response: Response, effects: seq<Effect>)

  /** A response that leaves storage alone. */
  predicate Refused(r: Response) {
    !(r.NoContent? || r.Body?)
  }

  /** The effects of `token_logout` after the save. */
  function LogoutEffects(id: UserId, createSession: bool): seq<Effect> {
    [TokensDeleted(id)] + (if createSession then [SessionLoggedOut] else [])
  }

  /** The validation context of a request by `caller`, against `instance` when updating it. */
  function ContextFor(st: State, id: UserId, instance: Option<UserId>, partial: bool, cfg: Config): Context
    requires id in st.users
  {
    Context(st.users[id], st.users, instance, partial, cfg.strong)
  }

  // ---------------------------------------------------------------------------
  // The `me` action

  /** What validation hands an action: the validated data, or the errors. */
  type Validated = Result<map<Key, Value>, ValidationError>

  /**
   * `me` for the requesting user `id`: GET renders the record; PUT and PATCH validate
   * against it (PATCH partially) and write the validated data; DELETE validates the
   * confirmation, marks the account inactive, saves only that column and logs out.
   */
  function MeAction(st: State, id: UserId, m: Method, data: map<Key, Value>, cfg: Config): (o: Outcome)
    requires id in st.users
    ensures Refused(o.response) ==> o.state == st && o.effects == []
  {
    var caller := st.users[id];
    var kind := SerializerFor(Me, m, caller.isStaff, false);
    match m
    case Get => Outcome(st, Body(Render(kind, caller)), [])
    case Put | Patch => Update(st, id, kind, Validate(kind, data, ContextFor(st, id, Some(id), m == Patch, cfg)))
    case Delete => Deactivate(st, id, Validate(kind, data, ContextFor(st, id, None, false, cfg)), cfg)
    case Post => Outcome(st, MethodNotAllowed, [])
  }

  /** PUT or PATCH once validated: write the data onto the caller's row with a full save and render the result. */
  function Update(st: State, id: UserId, kind: SerializerKind, r: Validated): (o: Outcome)
    requires id in st.users
    ensures Refused(o.response) ==> o.state == st && o.effects == []
  {
    match r
    case Failure(e) => Outcome(st, BadRequest(e), [])
    case Success(attrs) =>
      var updated := ApplyUpdate(st.users[id], attrs);
      Outcome(st.(users := st.users[id := updated]), Body(Render(kind, updated)), [Saved(id, AllModelFields)])
  }

  /** DELETE once validated: clear `is_active`, save only that column, then log out. */
  function Deactivate(st: State, id: UserId, r: Validated, cfg: Config): (o: Outcome)
    requires id in st.users
    ensures o.response == NoContent <==> r.Success?
    ensures r.Failure? ==> o == Outcome(st, BadRequest(r.error), [])
  {
    match r
    case Failure(e) => Outcome(st, BadRequest(e), [])
    case Success(_) =>
      var users := st.users[id := st.users[id].(isActive := false)];
      Outcome(State(users, TokenLogout(st.creds, id, cfg.createSession)), NoContent,
              [Saved(id, {IsActive})] + LogoutEffects(id, cfg.createSession))
  }

  /**
   * `me` as written: every branch reaches `get_object()`, which needs a primary key the
   * route does not carry, so the request fails with a server error and nothing is
   * stored. GET, PUT and PATCH look the record up before anything else; DELETE first
   * validates with the serializers as declared (whose deletion serializer lacks
   * `current_password`) and fails on the lookup after that.
   */
  function MeAsWritten(st: State, id: UserId, m: Method, data: map<Key, Value>, cfg: Config): (o: Outcome)
    requires id in st.users
    ensures o.state == st && o.effects == [] && Refused(o.response)
    ensures m == Get || m == Put || m == Patch ==> o.response == ServerError
    ensures m == Delete ==> o.response == ServerError || o.response.BadRequest?
  {
    var caller := st.users[id];
    var kind := SerializerFor(Me, m, caller.isStaff, false);
    match m
    case Get | Put | Patch => Outcome(st, ServerError, [])
    case Delete =>
      (match ValidateAsWritten(kind, data, ContextFor(st, id, None, false, cfg))
       case Failure(e) => Outcome(st, BadRequest(e), [])
       case Success(_) => Outcome(st, ServerError, []))
    case Post => Outcome(st, MethodNotAllowed, [])
  }

  // ---------------------------------------------------------------------------
  // The `set_password` action

  /** The password `set_password` stores: the validated new password, or none when the serializer has no such key. */
  function NewPasswordOf(attrs: map<Key, Value>): Option<string> {
    if NewPassword in attrs && attrs[NewPassword].Text? then Some(attrs[NewPassword].s) else None
  }

  /**
   * `set_password` for the requesting user `id`: validate, store the new password
   * (hashed) with a full save, then log out.
   */
  function SetPasswordAction(st: State, id: UserId, data: map<Key, Value>, cfg: Config): (o: Outcome)
    requires id in st.users
    ensures o.response == NoContent || o.response.BadRequest?
    ensures o.response.BadRequest? ==> o.state == st && o.effects == []
    ensures o.response == NoContent ==>
      && id in o.state.users
      && o.state.users == st.users[id := st.users[id].(password := o.state.users[id].password)]
      && o.state.creds == TokenLogout(st.creds, id, cfg.createSession)
  {
    var kind := IntendedSerializerFor(SetPassword, Post, st.users[id].isStaff, false);
    StorePassword(st, id, Validate(kind, data, ContextFor(st, id, None, false, cfg)), cfg)
  }

  /**
   * `set_password` once validated: on success only the caller's password changes, the
   * token is deleted, and the save is recorded before the logout; on failure nothing
   * changes.
   */
  function StorePassword(st: State, id: UserId, r: Validated, cfg: Config): (o: Outcome)
    requires id in st.users
    ensures r.Failure? ==> o == Outcome(st, BadRequest(r.error), [])
    ensures r.Success? ==>
      && o.response == NoContent
      && id in o.state.users
      && o.state.users == st.users[id := st.users[id].(password := o.state.users[id].password)]
      && o.state.creds == TokenLogout(st.creds, id, cfg.createSession)
      && o.effects == [Saved(id, AllModelFields)] + LogoutEffects(id, cfg.createSession)
  {
    match r
    case Failure(e) => Outcome(st, BadRequest(e), [])
    case Success(attrs) =>
      var users := st.users[id := st.users[id].(password := MakePassword(NewPasswordOf(attrs)))];
      Outcome(State(users, TokenLogout(st.creds, id, cfg.createSession)), NoContent,
              [Saved(id, AllModelFields)] + LogoutEffects(id, cfg.createSession))
  }

  /**
   * `set_password` as written: after validation, `get_object()` fails for want of a
   * primary key, so nothing is stored and the answer is a bad request or a server error.
   */
  function SetPasswordAsWritten(st: State, id: UserId, data: map<Key, Value>, cfg: Config): (o: Outcome)
    requires id in st.users
    ensures o.state == st && o.effects == []
    ensures o.response == ServerError || o.response.BadRequest?
  {
    var caller := st.users[id];
    var kind := SerializerFor(SetPassword, Post, caller.isStaff, false);
    match ValidateAsWritten(kind, data, ContextFor(st, id, None, false, cfg))
    case Failure(e) => Outcome(st, BadRequest(e), [])
    case Success(_) => Outcome(st, ServerError, [])
  }

  // ---------------------------------------------------------------------------
  // Requests

  /** How a request authenticates: not at all, with a token key, or with the session. */
  datatype Auth = NoAuth | TokenAuth(key: string) | SessionAuth

  /** The two routes of the account endpoints. */
  datatype Route = MeRoute | SetPasswordRoute
  {
    function ActionOf(): Action {
      match this
      case MeRoute => Me
      case SetPasswordRoute => SetPassword
    }

    /** The methods the route's `@action` declares: GET, PUT, PATCH and DELETE for `me`, POST for `set_password`. */
    predicate Maps(m: Method) {
      match this
      case MeRoute => m != Post
      case SetPasswordRoute => m == Post
    }
  }

  /** The outcome of authentication: who asks, or a rejection. */
  datatype Authn = Identified(caller: Caller) | Rejected

  /**
   * Token and session authentication: a token key must belong to somebody, and that
   * somebody must be active; a session carries a user only while they are active; no
   * credentials mean an anonymous caller.
   */
  function Identify(st: State, auth: Auth): (r: Authn)
    requires Valid(st)
    ensures r.Identified? && r.caller.Authenticated? ==> r.caller.id in st.users && st.users[r.caller.id].isActive
    ensures r.Identified? && r.caller.Authenticated? ==> r.caller.isStaff == st.users[r.caller.id].isStaff
    ensures auth.TokenAuth? ==>
      (r.Identified? <==> exists i | i in st.creds.tokens :: st.creds.tokens[i] == auth.key && st.users[i].isActive)
  {
    match auth
    case NoAuth => Identified(Anonymous)
    case TokenAuth(key) =>
      (match TokenOwner(st.creds.tokens, key)
       case None => Rejected
       case Some(i) =>
         if st.users[i].isActive then Identified(Authenticated(i, st.users[i].isStaff)) else Rejected)
    case SessionAuth =>
      match st.creds.session
      case Some(i) =>
        if st.users[i].isActive then Identified(Authenticated(i, st.users[i].isStaff)) else Identified(Anonymous)
      case None => Identified(Anonymous)
  }

  /** The action behind a route, run for the authenticated user `id`; the password route takes only POST. */
  function Handle(st: State, id: UserId, route: Route, m: Method, data: map<Key, Value>, cfg: Config): (o: Outcome)
    requires id in st.users
    ensures Refused(o.response) ==> o.state == st && o.effects == []
  {
    match route
    case MeRoute => MeAction(st, id, m, data, cfg)
    case SetPasswordRoute =>
      if m == Post then SetPasswordAction(st, id, data, cfg) else Outcome(st, MethodNotAllowed, [])
  }

  /**
   * The permission a request must pass: the action's, when the route maps the method;
   * otherwise the request has no action and the view set's default applies.
   */
  function RequestPermission(route: Route, m: Method): Permission {
    if route.Maps(m) then IntendedPermissionFor(route.ActionOf()) else DefaultPermission
  }

  /**
   * One request to an account endpoint: authenticate, check the permission (an
   * anonymous caller is told to authenticate, anybody else is forbidden), answer 405 to
   * a method the route does not map, then run the action for the requesting user.
   */
  function Serve(st: State, auth: Auth, route: Route, m: Method, data: map<Key, Value>, cfg: Config): (o: Outcome)
    requires Valid(st)
    ensures Refused(o.response) ==> o.state == st && o.effects == []
  {
    match Identify(st, auth)
    case Rejected => Outcome(st, NotAuthenticated, [])
    case Identified(caller) =>
      if !Admits(RequestPermission(route, m), caller) then
        Outcome(st, if caller.Anonymous? then NotAuthenticated else Forbidden, [])
      else if !route.Maps(m) then
        Outcome(st, MethodNotAllowed, [])
      else
        assert caller.Authenticated?;
        Handle(st, caller.id, route, m, data, cfg)
  }

  // ---------------------------------------------------------------------------
  // Deactivation

  /**
   * A deactivation that goes through changes nothing but the caller's `is_active`, which
   * becomes false; the caller's token is gone and every other token stays; the save is
   * recorded before the token deletion.
   */
  lemma DeactivationOnlyClearsActive(st: State, id: UserId, r: Validated, cfg: Config)
    requires id in st.users
    ensures var o := Deactivate(st, id, r, cfg);
      o.response == NoContent ==>
        && id in o.state.users
        && !o.state.users[id].isActive
        && (forall f | f != IsActive :: Models.Get(o.state.users[id], f) == Models.Get(st.users[id], f))
        && o.state.users == st.users[id := o.state.users[id]]
        && id !in o.state.creds.tokens
        && (forall j | j in st.creds.tokens && j != id :: j in o.state.creds.tokens && o.state.creds.tokens[j] == st.creds.tokens[j])
        && |o.effects| >= 2 && o.effects[0] == Saved(id, {IsActive}) && o.effects[1] == TokensDeleted(id)
  {
    var u := st.users[id];
    forall f | f != IsActive
      ensures Models.Get(u.(isActive := false), f) == Models.Get(u, f)
    {
    }
  }

  /** `me` DELETE is the deactivation of the caller, run on what the serializer the view picks validates. */
  lemma MeDeleteDeactivates(st: State, id: UserId, data: map<Key, Value>, cfg: Config)
    requires id in st.users
    ensures MeAction(st, id, Delete, data, cfg) ==
      Deactivate(st, id, Validate(SerializerFor(Me, Delete, st.users[id].isStaff, false), data, ContextFor(st, id, None, false, cfg)), cfg)
  {
  }

  /**
   * For a non-staff caller, `me` DELETE succeeds exactly when the payload's current
   * password is a non-blank text that checks against the stored one (and `is_active`, if
   * sent, is a boolean); a current password that does not check is answered with
   * `invalid_password` and the account stays as it was.
   */
  lemma NonStaffDeactivation(st: State, id: UserId, data: map<Key, Value>, cfg: Config)
    requires id in st.users && !st.users[id].isStaff
    ensures MeAction(st, id, Delete, data, cfg).response == NoContent <==>
      && TextInput(data, CurrentPassword).Some?
      && CheckPassword(st.users[id].password, TextInput(data, CurrentPassword).value)
      && ActiveFlagOk(data)
    ensures var o := MeAction(st, id, Delete, data, cfg);
      TextInput(data, CurrentPassword).Some? && !CheckPassword(st.users[id].password, TextInput(data, CurrentPassword).value) ==>
        && o.state == st && o.effects == []
        && o.response.BadRequest? && o.response.error.FieldErrors?
        && CurrentPassword in o.response.error.fields
        && o.response.error.fields[CurrentPassword] == InvalidPassword
  {
    var ctx := ContextFor(st, id, None, false, cfg);
    OwnAccountSerializers(Delete);
    MeDeleteDeactivates(st, id, data, cfg);
    DeleteValidation(data, ctx);
    if TextInput(data, CurrentPassword).Some? && !CheckPassword(st.users[id].password, TextInput(data, CurrentPassword).value) {
      WrongCurrentPasswordRejected(DeleteSerializer, data, ctx);
    }
  }

  /**
   * A staff caller's `me` DELETE is validated by the admin serializer with no instance,
   * so a payload that repeats the caller's own email fails the uniqueness check and the
   * account stays active.
   */
  lemma StaffDeactivationRejectsOwnEmail(st: State, id: UserId, data: map<Key, Value>, cfg: Config)
    requires Valid(st) && id in st.users && st.users[id].isStaff
    requires ModelKey(Email) in data && data[ModelKey(Email)].Text?
    requires Trim(data[ModelKey(Email)].s) == st.users[id].email
    ensures var o := MeAction(st, id, Delete, data, cfg);
      && o.state == st && o.effects == []
      && o.response.BadRequest? && o.response.error.FieldErrors?
      && ModelKey(Email) in o.response.error.fields
      && o.response.error.fields[ModelKey(Email)] == NotUnique
  {
    StaffSerializers(Me, Delete);
    MeDeleteDeactivates(st, id, data, cfg);
    TakenEmailRejected(AdminSerializer, data, ContextFor(st, id, None, false, cfg), id);
  }

  // ---------------------------------------------------------------------------
  // Reading and updating one's own account

  /**
   * `me` GET renders the caller's record without changing anything: a non-staff caller
   * sees the five profile columns, a staff caller (routed to the list serializer) only
   * the id and the email. As written, the same request fails with a server error.
   */
  lemma MeReadRenders(st: State, id: UserId, data: map<Key, Value>, cfg: Config)
    requires id in st.users
    ensures var o := MeAction(st, id, Get, data, cfg);
      && o.state == st && o.effects == [] && o.response.Body?
      && (!st.users[id].isStaff ==>
            o.response.data.Keys == {ModelKey(Email), ModelKey(Username), ModelKey(Name), ModelKey(Phone), ModelKey(BirthDate)})
      && (st.users[id].isStaff ==>
            o.response.data == map[ModelKey(Id) := Num(st.users[id].id), ModelKey(Email) := Text(st.users[id].email)])
    ensures MeAsWritten(st, id, Get, data, cfg) == Outcome(st, ServerError, [])
  {
    var u := st.users[id];
    if u.isStaff {
      StaffSerializers(Me, Get);
      RenderAdminList(u);
    } else {
      OwnAccountSerializers(Get);
      RenderUser(u);
    }
  }

  /** `me` PUT or PATCH is the update of the caller's row with what the serializer the view picks validates. */
  lemma MeUpdateUpdates(st: State, id: UserId, m: Method, data: map<Key, Value>, cfg: Config)
    requires id in st.users
    requires m == Put || m == Patch
    ensures var kind := SerializerFor(Me, m, st.users[id].isStaff, false);
      MeAction(st, id, m, data, cfg) == Update(st, id, kind, Validate(kind, data, ContextFor(st, id, Some(id), m == Patch, cfg)))
  {
  }

  /**
   * A non-staff `me` PUT or PATCH that succeeds changes at most the caller's username,
   * name, phone and birth date (never the email), touches no other row and no
   * credential, and answers with the updated record rendered by the same serializer.
   */
  lemma MeUpdateFraming(st: State, id: UserId, m: Method, data: map<Key, Value>, cfg: Config)
    requires id in st.users && !st.users[id].isStaff
    requires m == Put || m == Patch
    ensures var o := MeAction(st, id, m, data, cfg);
      o.response.Body? ==>
        && id in o.state.users
        && (forall f | f !in SelfEditable :: Models.Get(o.state.users[id], f) == Models.Get(st.users[id], f))
        && o.state.users == st.users[id := o.state.users[id]]
        && o.state.creds == st.creds
        && o.response == Body(Render(UserSerializer, o.state.users[id]))
  {
    var ctx := ContextFor(st, id, Some(id), m == Patch, cfg);
    var r := Validate(UserSerializer, data, ctx);
    OwnAccountSerializers(m);
    MeUpdateUpdates(st, id, m, data, cfg);
    if r.Success? {
      UserUpdateFraming(st.users[id], data, ctx, r.value);
    }
  }

  /**
   * The self-service rendering of a record shows exactly the five profile columns, and
   * the email shown is the stored one; with `MeUpdateFraming`, the answer to an update
   * shows the email stored before it.
   */
  lemma RenderUserKeepsEmail(u: User, updated: User)
    requires Models.Get(updated, Email) == Models.Get(u, Email)
    ensures Render(UserSerializer, updated).Keys == {ModelKey(Email), ModelKey(Username), ModelKey(Name), ModelKey(Phone), ModelKey(BirthDate)}
    ensures Render(UserSerializer, updated)[ModelKey(Email)] == Text(u.email)
  {
    RenderUser(updated);
  }

  // ---------------------------------------------------------------------------
  // Password change

  /**
   * A non-staff password change succeeds exactly when the current password checks, the
   * new one is strong, and the two differ. Afterwards the new password, and only it,
   * checks against the stored one; in particular the old one no longer does.
   */
  lemma PasswordChange(st: State, id: UserId, data: map<Key, Value>, cfg: Config)
    requires id in st.users && !st.users[id].isStaff
    ensures var o := SetPasswordAction(st, id, data, cfg);
      var cp := TextInput(data, CurrentPassword);
      var np := TextInput(data, NewPassword);
      o.response == NoContent <==>
        && cp.Some? && np.Some?
        && CheckPassword(st.users[id].password, cp.value)
        && cfg.strong(np.value, st.users[id])
        && cp != np
    ensures var o := SetPasswordAction(st, id, data, cfg);
      var cp := TextInput(data, CurrentPassword);
      var np := TextInput(data, NewPassword);
      o.response == NoContent ==>
        && cp.Some? && np.Some? && id in o.state.users
        && (forall raw :: CheckPassword(o.state.users[id].password, raw) <==> raw == np.value)
        && !CheckPassword(o.state.users[id].password, cp.value)
  {
    var ctx := ContextFor(st, id, None, false, cfg);
    IntendedSerializerIsTable(SetPassword, Post, false, false);
    SetPasswordValidation(data, ctx);
    var r := Validate(SetPasswordSerializer, data, ctx);
    var o := StorePassword(st, id, r, cfg);
    assert SetPasswordAction(st, id, data, cfg) == o;
    if r.Success? {
      assert NewPasswordOf(r.value) == Some(TextInput(data, NewPassword).value);
      assert o.state.users[id].password == MakePassword(NewPasswordOf(r.value));
      forall raw
        ensures CheckPassword(o.state.users[id].password, raw) <==> raw == TextInput(data, NewPassword).value
      {
        MakePasswordChecks(NewPasswordOf(r.value), raw);
      }
    }
  }

  /**
   * After a non-staff password change an active user logs in by email with the new
   * password, and the old one is refused.
   */
  lemma PasswordChangeThenLogin(st: State, id: UserId, data: map<Key, Value>, cfg: Config)
    requires Valid(st) && id in st.users && !st.users[id].isStaff && st.users[id].isActive
    requires SetPasswordAction(st, id, data, cfg).response == NoContent
    ensures var o := SetPasswordAction(st, id, data, cfg);
      && TextInput(data, CurrentPassword).Some? && TextInput(data, NewPassword).Some?
      && EmailsUnique(o.state.users)
      && Authenticate(o.state.users, st.users[id].email, TextInput(data, NewPassword).value) == Some(id)
      && Authenticate(o.state.users, st.users[id].email, TextInput(data, CurrentPassword).value) == None
  {
    var o := SetPasswordAction(st, id, data, cfg);
    PasswordChange(st, id, data, cfg);
    SetPasswordKeepsValid(st, id, data, cfg);
    var u := o.state.users[id];
    assert u.email == st.users[id].email && u.isActive;
    var np := TextInput(data, NewPassword).value;
    assert CheckPassword(u.password, np);
  }

  /**
   * A staff password change goes through the admin serializer, which has no
   * `new_password`: a success leaves the account with an unusable password that no
   * attempt checks against.
   */
  lemma StaffPasswordChangeLocksOut(st: State, id: UserId, data: map<Key, Value>, cfg: Config)
    requires id in st.users && st.users[id].isStaff
    ensures var o := SetPasswordAction(st, id, data, cfg);
      o.response == NoContent ==>
        && id in o.state.users
        && o.state.users[id].password == Unusable
        && forall raw :: !CheckPassword(o.state.users[id].password, raw)
  {
    var ctx := ContextFor(st, id, None, false, cfg);
    IntendedSerializerIsTable(SetPassword, Post, true, false);
    var r := Validate(AdminSerializer, data, ctx);
    var o := StorePassword(st, id, r, cfg);
    assert SetPasswordAction(st, id, data, cfg) == o;
    if r.Success? {
      AdminHasNoNewPassword(data, ctx);
      assert NewPasswordOf(r.value).None?;
      assert o.state.users[id].password == MakePassword(NewPasswordOf(r.value));
    }
  }

  /**
   * As written, a non-staff `me` DELETE is validated without any password: it ends in a
   * server error exactly when `is_active`, if sent, reads as a boolean, so in particular
   * for an empty payload, and is a bad request otherwise. Nothing is stored either way.
   */
  lemma NonStaffDeleteAsWritten(st: State, id: UserId, data: map<Key, Value>, cfg: Config)
    requires id in st.users && !st.users[id].isStaff
    ensures var o := MeAsWritten(st, id, Delete, data, cfg);
      && o.state == st && o.effects == []
      && (o.response == ServerError <==> ActiveFlagOk(data))
      && (!ActiveFlagOk(data) ==> o.response.BadRequest?)
    ensures MeAsWritten(st, id, Delete, map[], cfg).response == ServerError
  {
    OwnAccountSerializers(Delete);
    assert ActiveFlagOk(map[]);
  }

  /**
   * As written, neither account action ever stores anything or answers with success:
   * the lookup by primary key fails first.
   */
  lemma AsWrittenNeverStores(st: State, id: UserId, m: Method, data: map<Key, Value>, cfg: Config)
    requires id in st.users
    ensures var o := MeAsWritten(st, id, m, data, cfg);
      o.state == st && o.effects == [] && Refused(o.response)
    ensures var o := SetPasswordAsWritten(st, id, data, cfg);
      o.state == st && o.effects == [] && Refused(o.response)
  {
  }

  // ---------------------------------------------------------------------------
  // The state invariant

  /** A deactivation keeps the state valid. */
  lemma DeactivateKeepsValid(st: State, id: UserId, r: Validated, cfg: Config)
    requires Valid(st) && id in st.users
    ensures Valid(Deactivate(st, id, r, cfg).state)
  {
    if r.Success? {
      OwnEmailFree(st.users, id);
      ReplaceKeepsValid(st.users, id, st.users[id].(isActive := false));
      TokenLogoutKeepsKeysUnique(st.creds, id, cfg.createSession);
    }
  }

  /** Storing a password keeps the state valid. */
  lemma StorePasswordKeepsValid(st: State, id: UserId, r: Validated, cfg: Config)
    requires Valid(st) && id in st.users
    ensures Valid(StorePassword(st, id, r, cfg).state)
  {
    if r.Success? {
      var o := StorePassword(st, id, r, cfg);
      OwnEmailFree(st.users, id);
      ReplaceKeepsValid(st.users, id, st.users[id].(password := o.state.users[id].password));
      TokenLogoutKeepsKeysUnique(st.creds, id, cfg.createSession);
    }
  }

  /** `me` keeps the state valid. */
  lemma MeKeepsValid(st: State, id: UserId, m: Method, data: map<Key, Value>, cfg: Config)
    requires Valid(st) && id in st.users
    ensures Valid(MeAction(st, id, m, data, cfg).state)
  {
    var kind := SerializerFor(Me, m, st.users[id].isStaff, false);
    match m
    case Put | Patch =>
      var ctx := ContextFor(st, id, Some(id), m == Patch, cfg);
      MeUpdateUpdates(st, id, m, data, cfg);
      if Validate(kind, data, ctx).Success? {
        ValidatedUpdateKeepsValid(kind, st.users, id, data, ctx);
      }
    case Delete =>
      MeDeleteDeactivates(st, id, data, cfg);
      DeactivateKeepsValid(st, id, Validate(kind, data, ContextFor(st, id, None, false, cfg)), cfg);
    case Get =>
    case Post =>
  }

  /** `set_password` keeps the state valid. */
  lemma SetPasswordKeepsValid(st: State, id: UserId, data: map<Key, Value>, cfg: Config)
    requires Valid(st) && id in st.users
    ensures Valid(SetPasswordAction(st, id, data, cfg).state)
  {
    var kind := IntendedSerializerFor(SetPassword, Post, st.users[id].isStaff, false);
    StorePasswordKeepsValid(st, id, Validate(kind, data, ContextFor(st, id, None, false, cfg)), cfg);
  }

  /** A handled request keeps the state valid. */
  lemma HandleKeepsValid(st: State, id: UserId, route: Route, m: Method, data: map<Key, Value>, cfg: Config)
    requires Valid(st) && id in st.users
    ensures Valid(Handle(st, id, route, m, data, cfg).state)
  {
    match route
    case MeRoute => MeKeepsValid(st, id, m, data, cfg);
    case SetPasswordRoute => SetPasswordKeepsValid(st, id, data, cfg);
  }

  /** A request is either refused before any action runs, or handled for the user it authenticated as. */
  lemma ServeDispatches(st: State, auth: Auth, route: Route, m: Method, data: map<Key, Value>, cfg: Config)
    requires Valid(st)
    ensures var o := Serve(st, auth, route, m, data, cfg);
      var who := Identify(st, auth);
      || (Refused(o.response) && o.state == st && o.effects == [])
      || (&& who.Identified? && who.caller.Authenticated? && who.caller.id in st.users
          && o == Handle(st, who.caller.id, route, m, data, cfg))
  {
    IntendedPermissionIsTable(route.ActionOf());
  }

  /** Every request to an account endpoint keeps the state valid. */
  lemma ServeKeepsValid(st: State, auth: Auth, route: Route, m: Method, data: map<Key, Value>, cfg: Config)
    requires Valid(st)
    ensures Valid(Serve(st, auth, route, m, data, cfg).state)
  {
    ServeDispatches(st, auth, route, m, data, cfg);
    var who := Identify(st, auth);
    if who.Identified? && who.caller.Authenticated? {
      HandleKeepsValid(st, who.caller.id, route, m, data, cfg);
    }
  }

  // ---------------------------------------------------------------------------
  // Requests

  /**
   * A method the route does not map leaves the request without an action, so the
   * default staff-only guard applies before the method is refused: an anonymous or
   * unrecognised caller is told to authenticate, a non-staff one is forbidden, and only
   * staff learn that the method is not allowed. Nothing changes.
   */
  lemma UnmappedMethodRefused(st: State, auth: Auth, route: Route, m: Method, data: map<Key, Value>, cfg: Config)
    requires Valid(st) && !route.Maps(m)
    ensures var o := Serve(st, auth, route, m, data, cfg);
      var who := Identify(st, auth);
      && o.state == st && o.effects == []
      && (who.Rejected? || who.caller.Anonymous? ==> o.response == NotAuthenticated)
      && (who.Identified? && who.caller.Authenticated? && !who.caller.isStaff ==> o.response == Forbidden)
      && (who.Identified? && who.caller.IsStaff() ==> o.response == MethodNotAllowed)
  {
  }

  /** A request without credentials is told to authenticate and changes nothing. */
  lemma AnonymousRefused(st: State, route: Route, m: Method, data: map<Key, Value>, cfg: Config)
    requires Valid(st)
    ensures Serve(st, NoAuth, route, m, data, cfg) == Outcome(st, NotAuthenticated, [])
  {
    IntendedPermissionIsTable(route.ActionOf());
  }

  /** A handled request changes no row but the requester's, and one answered with 204 has logged the requester out. */
  lemma HandleTouchesOnlyCaller(st: State, id: UserId, route: Route, m: Method, data: map<Key, Value>, cfg: Config)
    requires id in st.users
    ensures var o := Handle(st, id, route, m, data, cfg);
      && o.state.users.Keys == st.users.Keys
      && forall j | j in st.users && j != id :: o.state.users[j] == st.users[j]
    ensures var o := Handle(st, id, route, m, data, cfg);
      o.response == NoContent ==> o.state.creds == TokenLogout(st.creds, id, cfg.createSession)
  {
    match route
    case MeRoute => MeTouchesOnlyCaller(st, id, m, data, cfg);
    case SetPasswordRoute =>
  }

  /** The `me` part of `HandleTouchesOnlyCaller`. */
  lemma MeTouchesOnlyCaller(st: State, id: UserId, m: Method, data: map<Key, Value>, cfg: Config)
    requires id in st.users
    ensures var o := MeAction(st, id, m, data, cfg);
      && o.state.users.Keys == st.users.Keys
      && forall j | j in st.users && j != id :: o.state.users[j] == st.users[j]
    ensures var o := MeAction(st, id, m, data, cfg);
      o.response == NoContent ==> o.state.creds == TokenLogout(st.creds, id, cfg.createSession)
  {
    if m == Put || m == Patch {
      MeUpdateUpdates(st, id, m, data, cfg);
    } else if m == Delete {
      MeDeleteDeactivates(st, id, data, cfg);
    }
  }

  /** A request changes no row but that of the user it authenticated as. */
  lemma ServeTouchesOnlyCaller(st: State, auth: Auth, route: Route, m: Method, data: map<Key, Value>, cfg: Config)
    requires Valid(st)
    ensures var o := Serve(st, auth, route, m, data, cfg);
      var who := Identify(st, auth);
      && o.state.users.Keys == st.users.Keys
      && forall j | j in st.users && !(who.Identified? && who.caller == Authenticated(j, st.users[j].isStaff)) ::
           o.state.users[j] == st.users[j]
  {
    ServeDispatches(st, auth, route, m, data, cfg);
    var who := Identify(st, auth);
    if who.Identified? && who.caller.Authenticated? {
      HandleTouchesOnlyCaller(st, who.caller.id, route, m, data, cfg);
    }
  }

  /**
   * A request that logs the caller out (a successful deactivation or password change)
   * leaves the token it was made with unusable, and with sessions on, leaves the
   * session anonymous.
   */
  lemma LogoutRevokesCredentials(st: State, key: string, route: Route, m: Method, data: map<Key, Value>, cfg: Config)
    requires Valid(st)
    ensures var o := Serve(st, TokenAuth(key), route, m, data, cfg);
      o.response == NoContent ==> Valid(o.state) && Identify(o.state, TokenAuth(key)) == Rejected
    ensures var o := Serve(st, TokenAuth(key), route, m, data, cfg);
      o.response == NoContent && cfg.createSession ==> Valid(o.state) && Identify(o.state, SessionAuth) == Identified(Anonymous)
  {
    var o := Serve(st, TokenAuth(key), route, m, data, cfg);
    ServeKeepsValid(st, TokenAuth(key), route, m, data, cfg);
    ServeDispatches(st, TokenAuth(key), route, m, data, cfg);
    if o.response == NoContent {
      var id := Identify(st, TokenAuth(key)).caller.id;
      assert TokenOwner(st.creds.tokens, key) == Some(id);
      HandleTouchesOnlyCaller(st, id, route, m, data, cfg);
      TokenLogoutRevokesKey(st.creds, id, cfg.createSession);
    }
  }
}

=== FILE: wrappers.dfy ===
/** Optional values and results carrying an error, as used throughout the account model. */
module Wrappers {

  /** A value that may be absent (Python's `None`). */
  datatype Option<+T> = None | Some(value: T) {

    /** The value, or `default` when absent (Python's `dict.get(key, default)`). */
    function GetOr(default: T): T {
      match this
      case Some(v) => v
      case None => default
    }
  }

  /** The outcome of an operation that either yields a value or raises an error. */
  datatype Result<+R, +E> = Success(value: R) | Failure(error: E)
}
